=== FILE: README.md ===
# Clockless LED driver: a Dafny model of `ClocklessController::showRGB`

`clockless.h` drives a one-wire, self-clocked LED strip (WS2811 and kin).
Every bit is one period of three phases measured in CPU cycles: the line is
raised at the start of phase 1 (T1), dropped at the start of phase 2 (T2) for
a 0, and dropped at the start of phase 3 (T3) for a 1. `showRGB` turns
interrupts off, computes the port values `hi` (pin set) and `lo` (pin clear)
from the port as it finds it, drives the line low, sends `3 * nLeds` bytes
most significant bit first, and turns interrupts back on. There are two
builds: on AVR each byte is eight unrolled `bitSetFast<7>` ... `bitSetFast<1>`
writers and one `bitSetLast<0, END_OF_LOOP>` whose phase 3 is shortened by the
cycles the loop test and next load take; on the Teensy 3 (`__MK20DX128__`) a
32-bit shift register `b` is tested with `b & 0x80` and shifted left, with the
next byte loaded during the eighth bit.

The model, one module per file:

- `Bits`: bit positions, the MSB-first bit stream of a byte buffer, and the
  receiver's reassembly of bytes from that stream.
- `Port`: `hi = *port | mask`, `lo = *port & ~mask` and the line level a port
  value drives.
- `Timing`: the `NS` conversion from nanoseconds to cycles (C's truncating
  `/`, `F_CPU` as a parameter, a zero divisor as "does not build") and the
  `NO_TIME` test, for single-value arguments, plus the textual expansion of
  `NS` applied to a sum.
- `Machine`: an abstract AVR with a cycle cost model. A program is a list of
  instructions (`cli`, `sei`, a `fastset` store, `delaycycles<n>`, `sbrs` plus
  the store it may skip, the loop test with a byte load, the final loop
  test). Running it yields the interrupt flag, the register, the byte in `b`,
  the waveform on the pin (a list of level/duration pulses) and the bits
  `sbrs` tested. A store costs `c` cycles (`_CYCLES(DATA_PIN)`) and changes
  the level at its start; `delaycycles<n>` costs `n`; `sbrs` costs 1, or 2
  when it skips; the loop test and load cost `END_OF_LOOP` = 6. The cycles
  `showRGB` spends between `cli()` and `*port = lo` (clockless.h:72-77) are
  one parameter, `setup`.
- `Encoder`: `bitSetFast`, `bitSetLast`, the unrolled byte body, and the
  waveform each produces.
- `Frame`: the AVR `showRGB` as one program, and what running it does.
- `ByteLoop`: the Teensy 3 byte loop, for bit order only, as written and as
  corrected.
- `Feasibility`: whether the minimums `NO_TIME` demands leave every delay of
  the AVR encoder non-negative, and a corrected threshold.
- `Controller`: `showRGB` over both build targets, with the Teensy 3 loop as
  written.

## Model

| member | source | states |
|---|---|---|
| Bits.ByteBitsIndex | clockless.h:107-114 | the eight bits of a byte go out as bit 7, 6, ..., 0, the order of `bitSetFast<7>` ... `bitSetLast<0>` |
| Bits.BitsDownIndex | clockless.h:107-114 | testing bits `k` down to 0 one writer at a time yields bit `k - j` at step `j` |
| Bits.PackByteBits | clockless.h:105-115 | the eight bits sent for a byte determine the byte |
| Bits.UnpackMsbFirst | clockless.h:105-115 | the stream of a whole buffer determines the buffer: no byte is lost, duplicated or reordered |
| Bits.MsbFirstAppend | clockless.h:105-106 | the stream of two buffers back to back is the stream of the first, then of the second |
| Bits.MsbFirstIndex | clockless.h:105-115 | bit `j` (from the top) of byte `i` is element `8 * i + j` of the stream |
| Port.Hi | clockless.h:76 | `hi` has every pin of the mask set and every other pin as the port was read |
| Port.Lo | clockless.h:77 | `lo` has every pin of the mask clear and every other pin as the port was read |
| Port.HiLoLevels | clockless.h:76-78 | with a non-empty mask, writing `hi` drives the line high and writing `lo` drives it low |
| Port.HiLoDifferOnlyInMask | clockless.h:76-77 | `hi` and `lo` differ exactly in the pin's bits, so the writes never disturb the other pins |
| Port.HiLoStable | clockless.h:76-78 | computing `hi` and `lo` from a port left at `lo` gives the same two values again |
| Timing.TruncDiv | clockless.h:8 | C division rounds toward zero: the quotient brackets the dividend from below for non-negative and from above for negative dividends |
| Timing.NsPerCycle | clockless.h:8 | the cycle period is defined exactly for 1 to 1000 MHz and is the largest whole number of nanoseconds that fits in one microsecond divided by the MHz: `period * MHz <= 1000 < (period + 1) * MHz` |
| Timing.Ns | clockless.h:8 | `NS(ns)` is the number of whole cycles that fit into `ns`, defined exactly when the period is; for a negative `ns` the quotient is truncated toward zero, as C's signed `/` does |
| Timing.NsZero | clockless.h:8 | zero nanoseconds is zero cycles |
| Timing.NsMonotone | clockless.h:8 | a longer target never converts to fewer cycles |
| Timing.NsOfSumAsWritten | clockless.h:8 | `NS(a + b)` as expanded, `a + b / period`, is defined for the same clocks as `NS` of the sum and, for non-negative `a` and `b`, never smaller than it |
| Timing.NsUnparenthesisedSum | clockless.h:8 | at 16 MHz `NS(300 + 50)` expands to 300 cycles while 350 ns are 5 cycles |
| Timing.NoTime | clockless.h:11 | `NO_TIME` is false exactly when the phases are at least 3, 2 and 6 cycles |
| Machine.StepCost | clockless.h:39-52 | `Machine.Step`, the cost model: every instruction lengthens the waveform by exactly its cost (store `c`, `delaycycles<n>` `n`, `sbrs` 1 or 2 when skipping, loop test and load `END_OF_LOOP`, `cli`/`sei` 1), a store leaves the line at the level of the value stored, only the load changes `b`, only `cli` and `sei` change the interrupt flag, and only `sbrs` records a tested bit, bit `k` of `b` |
| Machine.ExtendKeeps | clockless.h:40 | a delay keeps the level of the line and every earlier pulse, and lengthens the current pulse by its cycle count |
| Machine.ExecAppend | clockless.h:105-115 | running two instruction sequences one after the other is running their concatenation |
| Encoder.BitSetFast | clockless.h:37-50 | the delays of `bitSetFast<k>` make a 0 cost exactly T1 + T2 + T3 cycles, and a 1 the same less the skipped store plus the extra `sbrs` cycle |
| Encoder.BitSetLast | clockless.h:53-66 | `bitSetLast<k, ADJ>` is `bitSetFast<k>` except that its phase-3 delay is `ADJ` cycles shorter |
| Encoder.ExecBitSetLast | clockless.h:53-66 | from a low line, `bitSetLast` records the tested bit, leaves the register at `lo`, and appends one high and one low pulse: T1 high and T2 + T3 - ADJ low for a 0, T1 + T2 + 1 - c high and T3 - ADJ low for a 1 |
| Encoder.BitOneSteps | clockless.h:53-66 | a set bit makes `sbrs` skip the phase-2 store, so the line stays high until the phase-3 store |
| Encoder.BitZeroSteps | clockless.h:53-66 | a clear bit lets the phase-2 store drop the line, and the phase-3 store keeps it low |
| Encoder.ExecBitSetFast | clockless.h:37-50 | `bitSetFast` produces the full-length waveform of the tested bit |
| Encoder.BitsFrom | clockless.h:107-114 | the unrolled byte body never touches the interrupt flag or the buffer and stores only `hi` and `lo` |
| Encoder.ByteProgram | clockless.h:107-114 | the loop body is the 48 instructions of `bitSetFast<7>` ... `bitSetFast<1>` followed by `bitSetLast<0, END_OF_LOOP>` |
| Encoder.ExtendCompletesBit | clockless.h:52-65 | the `END_OF_LOOP` cycles after `bitSetLast` complete exactly the phase 3 it shortened |
| Encoder.ExecBitsFrom | clockless.h:107-114 | writers `k` down to 0 test bits `k` down to 0 of `b` and, once the loop-control cycles are added, leave exactly those bits' waveforms on the line |
| Encoder.BitPeriod | clockless.h:37-50 | a 0 lasts T1 + T2 + T3 cycles and a 1 lasts `1 - c` cycles more |
| Encoder.BitPeriodConstantIffOneCycleStore | clockless.h:39-41 | both bit values take equally long if and only if one `fastset` costs one cycle |
| Encoder.BitsWaveDuration | clockless.h:105-115 | with one-cycle stores, `n` bits last exactly `n * (T1 + T2 + T3)` cycles |
| Frame.Loop | clockless.h:105-115 | the loop loads only inside the buffer, never touches the interrupt flag, and stores only `hi` and `lo` |
| Frame.FrameProgram | clockless.h:69-118 | `showRGB` begins with `cli()`, the setup cycles and `*port = lo`, ends with `sei()`, has no other interrupt change, and writes only `hi` and `lo` |
| Frame.LoopFetches | clockless.h:105-106 | the loop from byte `i` loads bytes `i` to `end - 1`, each once, in order |
| Frame.FrameFetches | clockless.h:74-75 | `showRGB` loads `data[0 .. 3 * nLeds)`, each once, in order |
| Frame.ExecByte | clockless.h:106-114 | one loop iteration tests the eight bits of the byte loaded, MSB first, and lays down their waveforms |
| Frame.ExecLoop | clockless.h:105-115 | the loop from byte `i` tests the bits of `data[i..end]` and lays down their waveforms back to back |
| Frame.Lead | clockless.h:70-78 | before the first bit the line keeps its entry level through `cli()` and the setup cycles, ends low, and the lead-in lasts `cli()`, setup, one store and one loop test |
| Frame.ExecLead | clockless.h:70-78 | `cli()`, the setup cycles and `*port = lo` leave interrupts off, the line low and the register at `lo`, with exactly the lead-in on the line |
| Frame.ShowRgb | clockless.h:69-118 | after `showRGB` interrupts are on, the register is at `lo`, the bits tested are exactly the `24 * nLeds` bits of the frame MSB first, and the line carries the lead-in (including the setup cycles), exactly those bits' waveforms, and `sei()` |
| Frame.ShowRgbTrace | clockless.h:69-118 | running the whole program from entry, setup cycles included, leaves interrupts on, the register at `lo`, the frame's bits tested MSB first, and the lead-in, those bits' waveforms and `sei()` on the line |
| Frame.RepeatFrame | clockless.h:76-78 | a second frame computes the same `hi` and `lo`, runs the same program, tests the same bits and starts from a low line, and a third frame repeats the second |
| Frame.FrameDuration | clockless.h:69-118 | with one-cycle stores a frame lasts exactly `1 + setup + 1 + END_OF_LOOP` cycles before the first bit, `24 * nLeds * (T1 + T2 + T3)` cycles of bits, and one cycle of `sei()` |
| ByteLoop.ShiftOut | clockless.h:83-98 | one pass of the Teensy loop makes eight tests |
| ByteLoop.TestedShift | clockless.h:87 | shifting `b` left once moves each later test one step earlier |
| ByteLoop.ShiftOutTested | clockless.h:83-98 | test `j` of a pass is bit 7 of `b << j` |
| ByteLoop.ShiftOutByte | clockless.h:83-98 | a pass over a byte loaded into the 32-bit `b` sends that byte MSB first |
| ByteLoop.AsWrittenLoop | clockless.h:82-102 | the loop as written ends normally exactly when the pointer starts at or before `end` inside the buffer, sending eight bits per iteration, and otherwise reads past the buffer |
| ByteLoop.AsWritten | clockless.h:80-103 | the Teensy loop as written reads past the buffer if and only if `nLeds == 0`, and otherwise sends all bytes of the frame but the last |
| ByteLoop.AsWrittenEmits | clockless.h:82-102 | from a pointer at or before `end`, the loop as written sends the bytes from the one preloaded up to but not including the last |
| ByteLoop.AsWrittenStep | clockless.h:82-102 | one iteration as written sends the byte in `b` and loads the next |
| ByteLoop.AsWrittenOverruns | clockless.h:82 | a pointer already past `end` never equals it, so the loop reads past the buffer |
| ByteLoop.AsWrittenUnpacks | clockless.h:81-102 | what a receiver rebuilds from the loop as written is the frame without its last byte |
| ByteLoop.AsWrittenDropsLastByte | clockless.h:81-102 | for one LED `[0xFF, 0x00, 0x80]` the loop as written sends 16 bits and loses the `0x80` byte |
| ByteLoop.AsWrittenNoLedsOverruns | clockless.h:74-82 | with no LEDs the loop as written sends a byte and reads past the buffer |
| ByteLoop.AsWrittenMissesLastByte | clockless.h:80-103 | for `nLeds > 0` the loop as written sends exactly the corrected stream less the last byte's bits |
| ByteLoop.FixedLoop | clockless.h:82-102 | the corrected loop sends eight bits for the byte in `b` and for every byte after it up to `end`, starting with the bits of `b` |
| ByteLoop.Fixed | clockless.h:80-103 | the corrected loop sends every byte of `data[0 .. 3 * nLeds)` MSB first and nothing else |
| ByteLoop.FixedEmits | clockless.h:82-102 | from a preloaded byte, the corrected loop sends it and every byte up to `end` |
| Feasibility.NoTimeGuardsFast | clockless.h:11 | phases `NO_TIME` accepts leave every delay of `bitSetFast` non-negative for stores of up to two cycles |
| Feasibility.NoTimeAdmitsNegativeLastDelay | clockless.h:11 | at 16 MHz `NO_TIME` accepts phases 3, 2, 6 for which the phase-3 delay of `bitSetLast<0, END_OF_LOOP>` is -1 cycles with a one-cycle store |
| Feasibility.NoTimeFixed | clockless.h:11 | the corrected test accepts exactly the phases of at least 3, 2 and 8 cycles |
| Feasibility.NoTimeFixedExact | clockless.h:52-65 | the corrected test accepts exactly the phases that leave every delay of `bitSetLast<k, END_OF_LOOP>` non-negative with a two-cycle store |
| Feasibility.NoTimeFixedGuardsLast | clockless.h:37-65 | phases the corrected test accepts fit both `bitSetFast` and `bitSetLast` for every store of up to two cycles |
| Feasibility.NoTimeFixedStricter | clockless.h:11 | the corrected test is defined for the same clocks and accepts only phases `NO_TIME` accepts |
| Feasibility.NoTimeFixedRejectsExample | clockless.h:11 | the corrected test rejects the 16 MHz phases 3, 2, 6 |
| Controller.SentBits | clockless.h:80-116 | the AVR build sends `data[0 .. 3 * nLeds)` MSB first; the Teensy 3 build as written sends all but the last byte, and reads past the buffer if and only if `nLeds == 0` |
| Controller.TargetsCompared | clockless.h:80-116 | for `nLeds > 0` the AVR bits are the Teensy bits followed by the last byte's bits; for `nLeds == 0` the AVR build sends nothing and the Teensy build reads past the buffer; the AVR bits rebuild the frame |

## Left out

- `init()` (clockless.h:29-33): the pin mask and the port are parameters of the model.
- `Pin<DATA_PIN>` internals: a `fastset` is modelled as a store of `hi` or `lo` whose cost `c` is a parameter; what the register is and how it is written are not part of this model.
- `delaycycles` internals: `delaycycles<n>` is modelled as exactly `n` cycles; a negative count is not modelled, because what it does depends on code that is not part of this model.
- The `sbrs` inline assembly: modelled as a test of bit `k` of `b` costing one cycle, or two when it skips the next one-word store; its encoding is not modelled.
- `cli()` and `sei()`: modelled as a flag and one cycle each; the hardware effect on pending interrupts is not modelled.
- The Teensy 3 timing (clockless.h:85-102): its cycle budgets depend on an ARM pipeline this model does not describe, so only the order of the bits sent is modelled.
- `showARGB` (clockless.h:120-121): its body is empty.
- The `CLEDController` base class and the template parameter `DATA_PIN`: not part of this model.
- Electrical behaviour and how an LED decodes the pulses: not modelled.
- Frame.ShowRgb: `nLeds` is a natural number; a negative count and the overflow of `nLeds * 3` in a C `int` are not modelled.
- Frame.ShowRgb: requires phases for which every delay is non-negative (`LastFits`) and a non-empty pin mask; other phases are the subject of the `NO_TIME` finding.
- Frame.ShowRgb: the final loop test that leaves the loop is charged `END_OF_LOOP` cycles like a test with a load.
- Frame.ShowRgb: `data_t` is modelled as an 8-bit port, as on AVR.
- Frame.ShowRgb: the cycles of clockless.h:72-77 (loading the mask and the port, `nLeds *= 3`, computing `end`, reading `*port` twice) are one parameter `setup`; how many there are depends on the code the compiler emits, which is not part of this model.
- Frame.ShowRgbTrace: the setup cycles are the same parameter `setup`, for the same reason.
- Frame.FrameDuration: the frame total is stated in terms of `setup`, for the same reason.
- Timing.Ns: `F_CPU` is taken as a signed `long` constant, so a negative `_NS` truncates toward zero; an unsigned `F_CPU` (`...UL`) would convert a negative `_NS` to unsigned and is not modelled.
- Timing.Ns: `NS` and `NO_TIME` are modelled for single-value arguments; the unparenthesised expansion of a compound argument is modelled only for a sum, by `Timing.NsOfSumAsWritten`.
- Controller.SentBits: on the Teensy 3 build speaks of bit order only, not timing.

## Findings

| source | as written | input that shows it | evidently intended | confidence | as-written member | corrected member |
|---|---|---|---|---|---|---|
| clockless.h:81-102 | `b = *data++` preloads the first byte, and each iteration sends `b` and then loads the next byte, so the byte loaded on the last iteration is never sent; with `nLeds == 0` the preload moves `data` past `end`, and `data != end` stays true until the loop reads past the buffer | `data = [0xFF, 0x00, 0x80]`, `nLeds = 1`: 16 bits are sent and `0x80` is lost; `data = [0x00]`, `nLeds = 0`: the loop reads past the buffer | every byte of `data[0 .. 3 * nLeds)` is sent, MSB first, and nothing is read for `nLeds == 0` | not executed; high | ByteLoop.AsWritten | ByteLoop.Fixed |
| clockless.h:11 | `NO_TIME` demands only 6 cycles of phase 3, but `bitSetLast<0, END_OF_LOOP>` waits `T3 - (_CYCLES + 6)` cycles in phase 3 | `F_CPU` = 16 MHz (62 ns per cycle), targets 186, 124 and 372 ns: phases 3, 2, 6 pass `NO_TIME`, and with a one-cycle store the last delay is -1 cycles | phase 3 of at least `2 + END_OF_LOOP` = 8 cycles, so every delay is non-negative for stores of up to two cycles | not executed; medium, because `NO_TIME` is not used inside this file and what a negative delay does is not part of this model | Feasibility.NoTimeAdmitsNegativeLastDelay | Feasibility.NoTimeFixed |
| clockless.h:8 | `NS(_NS)` expands to `_NS / (1000 / (F_CPU / 1000000L))` without parentheses around `_NS`, so an argument such as `300 + 50` divides only its last term | `F_CPU` = 16 MHz: `NS(300 + 50)` is `300 + 50 / 62` = 300 cycles, not 350 / 62 = 5 | `((_NS) / (1000 / (F_CPU / 1000000L)))`: the whole argument converted | not executed; low, because no compound argument is passed to `NS` or `NO_TIME` inside this file | Timing.NsUnparenthesisedSum | Timing.Ns |

=== FILE: bits.dfy ===
/**
 * Bits of the frame buffer in the order the clockless encoder puts them on
 * the wire: bytes in buffer order, each byte most significant bit first.
 */
module Bits {

  /** A bit position inside a byte: the immediate operand of `sbrs`. */
  type BitIndex = k: nat | k < 8

  /** The byte with only bit `k` set (`1 << k`). */
  function BitMask(k: BitIndex): bv8 {
    match k
    case 0 => 0x01
    case 1 => 0x02
    case 2 => 0x04
    case 3 => 0x08
    case 4 => 0x10
    case 5 => 0x20
    case 6 => 0x40
    case _ => 0x80
  }

  /** Bit `k` of `x` is set (what `sbrs x, k` tests). */
  predicate BitOf(x: bv8, k: BitIndex) {
    x & BitMask(k) != 0
  }

  /** Bits `k`, `k - 1`, ..., `0` of `x`, highest first. */
  function BitsDown(x: bv8, k: BitIndex): (r: seq<bool>)
    ensures |r| == k + 1
  {
    if k == 0 then [BitOf(x, 0)] else [BitOf(x, k)] + BitsDown(x, k - 1)
  }

  /** Element `j` of `BitsDown(x, k)` is bit `k - j`. */
  lemma {:induction false} BitsDownIndex(x: bv8, k: BitIndex, j: nat)
    requires j <= k
    ensures BitsDown(x, k)[j] == BitOf(x, k - j)
  {
    if j > 0 {
      BitsDownIndex(x, k - 1, j - 1);
    }
  }

  /** The eight bits of one byte, most significant first: the order of `bitSetFast<7>` ... `bitSetLast<0>`. */
  function ByteBits(x: bv8): (r: seq<bool>)
    ensures |r| == 8
  {
    BitsDown(x, 7)
  }

  /** Bit `j` of a byte's stream is bit `7 - j` of the byte. */
  lemma ByteBitsIndex(x: bv8)
    ensures forall j :: 0 <= j < 8 ==> ByteBits(x)[j] == BitOf(x, 7 - j)
  {
    forall j | 0 <= j < 8
      ensures ByteBits(x)[j] == BitOf(x, 7 - j)
    {
      BitsDownIndex(x, 7, j);
    }
  }

  /** The bit stream of a byte buffer. */
  function MsbFirst(bytes: seq<bv8>): (r: seq<bool>)
    ensures |r| == 8 * |bytes|
  {
    if |bytes| == 0 then [] else ByteBits(bytes[0]) + MsbFirst(bytes[1..])
  }

  /** Reassembles one byte from eight bits, most significant first. */
  function PackByte(bits: seq<bool>): bv8
    requires |bits| == 8
  {
    (if bits[0] then 0x80 else 0) | (if bits[1] then 0x40 else 0) |
    (if bits[2] then 0x20 else 0) | (if bits[3] then 0x10 else 0) |
    (if bits[4] then 0x08 else 0) | (if bits[5] then 0x04 else 0) |
    (if bits[6] then 0x02 else 0) | (if bits[7] then 0x01 else 0)
  }

  /** Packing a byte's eight bits gives the byte back. */
  lemma PackByteBits(x: bv8)
    ensures PackByte(ByteBits(x)) == x
  {
    var bb := ByteBits(x);
    ByteBitsIndex(x);
    assert bb[0] == BitOf(x, 7) && bb[1] == BitOf(x, 6) && bb[2] == BitOf(x, 5) && bb[3] == BitOf(x, 4);
    assert bb[4] == BitOf(x, 3) && bb[5] == BitOf(x, 2) && bb[6] == BitOf(x, 1) && bb[7] == BitOf(x, 0);
  }

  /** What a receiver reassembles from an MSB-first bit stream. */
  function Unpack(bits: seq<bool>): seq<bv8>
    requires |bits| % 8 == 0
  {
    if |bits| == 0 then [] else [PackByte(bits[..8])] + Unpack(bits[8..])
  }

  /** Every bit of every byte is sent: the stream determines the buffer. */
  lemma {:induction false} UnpackMsbFirst(bytes: seq<bv8>)
    ensures Unpack(MsbFirst(bytes)) == bytes
  {
    if |bytes| > 0 {
      var s := MsbFirst(bytes);
      var x := bytes[0];
      assert s[..8] == ByteBits(x);
      assert s[8..] == MsbFirst(bytes[1..]);
      PackByteBits(x);
      UnpackMsbFirst(bytes[1..]);
    }
  }

  lemma {:induction false} MsbFirstAppend(a: seq<bv8>, b: seq<bv8>)
    ensures MsbFirst(a + b) == MsbFirst(a) + MsbFirst(b)
  {
    if |a| == 0 {
      assert a + b == b;
    } else {
      assert (a + b)[1..] == a[1..] + b;
      MsbFirstAppend(a[1..], b);
    }
  }

  /** The stream of a buffer's first `n` bytes is that of the first `n - 1`, then byte `n - 1`'s bits. */
  lemma MsbFirstSnoc(bytes: seq<bv8>, n: nat)
    requires 0 < n <= |bytes|
    ensures MsbFirst(bytes[..n]) == MsbFirst(bytes[..n - 1]) + ByteBits(bytes[n - 1])
  {
    assert bytes[..n] == bytes[..n - 1] + [bytes[n - 1]];
    MsbFirstAppend(bytes[..n - 1], [bytes[n - 1]]);
    assert MsbFirst([bytes[n - 1]]) == ByteBits(bytes[n - 1]) + MsbFirst([]);
  }

  /** Bit `j` of byte `i` is element `8 * i + j` of the stream. */
  lemma {:induction false} MsbFirstIndex(bytes: seq<bv8>, i: nat, j: nat)
    requires i < |bytes| && j < 8
    ensures MsbFirst(bytes)[8 * i + j] == BitOf(bytes[i], 7 - j)
  {
    var head, rest := ByteBits(bytes[0]), MsbFirst(bytes[1..]);
    assert MsbFirst(bytes) == head + rest;
    if i > 0 {
      MsbFirstIndex(bytes[1..], i - 1, j);
      assert MsbFirst(bytes)[8 * i + j] == rest[8 * (i - 1) + j];
    } else {
      ByteBitsIndex(bytes[0]);
      assert MsbFirst(bytes)[j] == head[j];
    }
  }
}

=== FILE: byteloop.dfy ===
/**
 * `showRGB` on the `__MK20DX128__` (Teensy 3) path: a byte loop over a
 * 32-bit shift register `b` with the next byte loaded during the eighth
 * bit's phase 3. Only the order of the bits is modelled, not their timing.
 */
module ByteLoop {
  import opened Bits

  /** What the loop leaves on the line: the bits sent, and whether it read past the buffer. */
  datatype Outcome = Emitted(bits: seq<bool>) | Overrun(bits: seq<bool>)

  /**
   * The bits of one pass: `i` more tests of `b & 0x80` each followed by
   * `b <<= 1`, then the eighth bit's test of `b & 0x80`.
   */
  function ShiftOut(b: bv32, i: nat): (r: seq<bool>)
    ensures |r| == i + 1
    decreases i
  {
    if i == 0 then [b & 0x80 != 0] else [b & 0x80 != 0] + ShiftOut(b << 1, i - 1)
  }

  /** The `j`-th test of a pass: bit 7 of `b` after `j` left shifts. */
  function Tested(b: bv32, j: nat): bool
    requires j <= 7
  {
    (b << j) & 0x80 != 0
  }

  /** Shifting once and testing at `j - 1` is testing the unshifted register at `j`. */
  lemma TestedShift(b: bv32, j: nat)
    requires 1 <= j <= 7
    ensures Tested(b << 1, j - 1) == Tested(b, j)
  {
  }

  /** The `j`-th element of a pass with `i` shifts left is the test at `7 - i + j`. */
  lemma {:induction false} ShiftOutTested(b: bv32, i: nat, j: nat)
    requires i <= 7 && j <= i
    ensures ShiftOut(b, i)[j] == Tested(b, j)
    decreases i
  {
    if j > 0 {
      ShiftOutTested(b << 1, i - 1, j - 1);
      TestedShift(b, j);
    }
  }

  /** For a byte widened to 32 bits, the `j`-th test is bit `7 - j` of the byte. */
  lemma TestedIsBit(x: bv8, j: nat)
    requires j <= 7
    ensures Tested(x as bv32, j) == BitOf(x, 7 - j)
  {
  }

  /** One pass of the loop body sends the byte loaded into `b`, MSB first. */
  lemma ShiftOutByte(x: bv8)
    ensures ShiftOut(x as bv32, 7) == ByteBits(x)
  {
    var r := ShiftOut(x as bv32, 7);
    ByteBitsIndex(x);
    forall j | 0 <= j < 8
      ensures r[j] == ByteBits(x)[j]
    {
      ShiftOutTested(x as bv32, 7, j);
      TestedIsBit(x, j);
    }
  }

  /**
   * `while (data != end) { <bits of b>; b = *data++; }` as written, with
   * `data` at index `idx`. The pointer is compared with `!=`, so once past
   * `end` the loop runs on until it reads beyond the buffer.
   */
  function AsWrittenLoop(data: seq<bv8>, idx: nat, end: nat, b: bv32): (r: Outcome)
    requires idx <= |data|
    ensures r.Emitted? <==> idx <= end <= |data|
    ensures r.Emitted? ==> |r.bits| == 8 * (end - idx)
    ensures r.Overrun? ==> |r.bits| == 8 * (|data| - idx + 1)
    decreases |data| - idx
  {
    if idx == end then Emitted([])
    else
      var bits := ShiftOut(b, 7);
      if idx == |data| then Overrun(bits)
      else Prefixed(bits, AsWrittenLoop(data, idx + 1, end, data[idx] as bv32))
  }

  /** `o` with `bits` sent before it. */
  function Prefixed(bits: seq<bool>, o: Outcome): (r: Outcome)
    ensures r.Emitted? == o.Emitted? && r.bits == bits + o.bits
  {
    match o
    case Emitted(r) => Emitted(bits + r)
    case Overrun(r) => Overrun(bits + r)
  }

  /**
   * The loop as written: `b = *data++` before the loop, then the loop. It
   * sends all but the last of the `3 * nLeds` bytes; with no LEDs it reads
   * past the buffer.
   */
  function AsWritten(data: seq<bv8>, nLeds: nat): (r: Outcome)
    requires 3 * nLeds <= |data|
    ensures nLeds == 0 <==> r.Overrun?
    ensures nLeds > 0 ==> r == Emitted(MsbFirst(data[..3 * nLeds - 1]))
  {
    if |data| == 0 then Overrun([])
    else
      var r := AsWrittenLoop(data, 1, 3 * nLeds, data[0] as bv32);
      if nLeds == 0 then
        AsWrittenOverruns(data, 1, 0, data[0] as bv32);
        r
      else
        AsWrittenFromStart(data, nLeds);
        r
  }

  /** With the first byte preloaded, the loop sends all bytes of the frame but the last. */
  lemma AsWrittenFromStart(data: seq<bv8>, nLeds: nat)
    requires 0 < 3 * nLeds <= |data|
    ensures AsWrittenLoop(data, 1, 3 * nLeds, data[0] as bv32) == Emitted(MsbFirst(data[..3 * nLeds - 1]))
  {
    AsWrittenEmits(data, 1, 3 * nLeds);
    assert data[0..3 * nLeds - 1] == data[..3 * nLeds - 1];
  }

  /** From a pointer at or before `end`, the loop sends bytes `idx - 1 .. end - 2`. */
  lemma {:induction false} AsWrittenEmits(data: seq<bv8>, idx: nat, end: nat)
    requires 1 <= idx <= end <= |data|
    ensures AsWrittenLoop(data, idx, end, data[idx - 1] as bv32) == Emitted(MsbFirst(data[idx - 1..end - 1]))
    decreases end - idx
  {
    if idx == end {
      assert data[idx - 1..end - 1] == [];
    } else {
      AsWrittenStep(data, idx, end);
      MsbFirstHead(data, idx, end - 1);
      AsWrittenEmits(data, idx + 1, end);
    }
  }

  /** One pass of the loop as written sends the byte loaded into `b` and loads the next. */
  lemma AsWrittenStep(data: seq<bv8>, idx: nat, end: nat)
    requires 1 <= idx < end <= |data|
    ensures AsWrittenLoop(data, idx, end, data[idx - 1] as bv32)
         == Prefixed(ByteBits(data[idx - 1]), AsWrittenLoop(data, idx + 1, end, data[idx] as bv32))
  {
    ShiftOutByte(data[idx - 1]);
  }

  /** From a pointer already past `end`, the loop never meets `end` and reads past the buffer. */
  lemma {:induction false} AsWrittenOverruns(data: seq<bv8>, idx: nat, end: nat, b: bv32)
    requires end < idx <= |data|
    ensures AsWrittenLoop(data, idx, end, b).Overrun?
    decreases |data| - idx
  {
    if idx < |data| {
      AsWrittenOverruns(data, idx + 1, end, data[idx] as bv32);
    }
  }

  /** One LED `[0xFF, 0x00, 0x80]`: the loop as written sends 16 bits, not 24; the 0x80 byte is lost. */
  lemma AsWrittenDropsLastByte()
    ensures AsWritten([0xFF, 0x00, 0x80], 1) == Emitted(MsbFirst([0xFF, 0x00]))
    ensures |AsWritten([0xFF, 0x00, 0x80], 1).bits| == 16
    ensures AsWritten([0xFF, 0x00, 0x80], 1) != Emitted(MsbFirst([0xFF, 0x00, 0x80]))
  {
    var data: seq<bv8> := [0xFF, 0x00, 0x80];
    assert data[..2] == [0xFF, 0x00];
  }

  /** What a receiver rebuilds from the loop as written is the frame less its last byte. */
  lemma AsWrittenUnpacks(data: seq<bv8>, nLeds: nat)
    requires 0 < 3 * nLeds <= |data|
    ensures Unpack(AsWritten(data, nLeds).bits) == data[..3 * nLeds - 1]
  {
    UnpackMsbFirst(data[..3 * nLeds - 1]);
  }

  /** With no LEDs the loop as written reads past even a buffer that holds a byte. */
  lemma AsWrittenNoLedsOverruns()
    ensures AsWritten([0x00], 0).Overrun?
    ensures AsWritten([0x00], 0).bits == ByteBits(0x00)
  {
    ShiftOutByte(0x00);
  }

  /**
   * The loop as evidently intended: send the byte in `b`, stop when it was
   * the last one, else load the next and go on.
   */
  function FixedLoop(data: seq<bv8>, idx: nat, end: nat, b: bv32): (r: seq<bool>)
    requires 1 <= idx <= end <= |data|
    ensures |r| == 8 * (end - idx + 1)
    ensures r[..8] == ShiftOut(b, 7)
    decreases end - idx
  {
    ShiftOut(b, 7) + (if idx == end then [] else FixedLoop(data, idx + 1, end, data[idx] as bv32))
  }

  /** The corrected byte loop sends every one of the `3 * nLeds` bytes, MSB first, and no other. */
  function Fixed(data: seq<bv8>, nLeds: nat): (bits: seq<bool>)
    requires 3 * nLeds <= |data|
    ensures bits == MsbFirst(data[..3 * nLeds])
  {
    if nLeds == 0 then []
    else
      FixedEmits(data, 1, 3 * nLeds);
      assert data[0..3 * nLeds] == data[..3 * nLeds];
      FixedLoop(data, 1, 3 * nLeds, data[0] as bv32)
  }

  lemma {:induction false} FixedEmits(data: seq<bv8>, idx: nat, end: nat)
    requires 1 <= idx <= end <= |data|
    ensures FixedLoop(data, idx, end, data[idx - 1] as bv32) == MsbFirst(data[idx - 1..end])
    decreases end - idx
  {
    ShiftOutByte(data[idx - 1]);
    MsbFirstHead(data, idx, end);
    if idx < end {
      FixedEmits(data, idx + 1, end);
    } else {
      assert data[idx..end] == [];
    }
  }

  /** For `nLeds > 0` the loop as written falls exactly the last byte short of the corrected loop. */
  lemma AsWrittenMissesLastByte(data: seq<bv8>, nLeds: nat)
    requires 3 * nLeds <= |data|
    requires nLeds > 0
    ensures AsWritten(data, nLeds).Emitted?
    ensures AsWritten(data, nLeds).bits + MsbFirst(data[3 * nLeds - 1..3 * nLeds]) == Fixed(data, nLeds)
  {
    var n := 3 * nLeds;
    assert data[..n] == data[..n - 1] + data[n - 1..n];
    MsbFirstAppend(data[..n - 1], data[n - 1..n]);
  }

  /** The bits of a slice are those of its first byte, then those of the rest. */
  lemma MsbFirstHead(data: seq<bv8>, idx: nat, end: nat)
    requires 1 <= idx <= end <= |data|
    ensures MsbFirst(data[idx - 1..end]) == ByteBits(data[idx - 1]) + MsbFirst(data[idx..end])
  {
    assert data[idx - 1..end][1..] == data[idx..end];
  }

}

=== FILE: controller.dfy ===
/**
 * `showRGB` as one operation over both build targets: the AVR path
 * (unrolled `bitSetFast`/`bitSetLast`, modelled with its timing) and the
 * Teensy 3 path (the 32-bit byte loop as written, modelled for bit order
 * only).
 */
module Controller {
  import opened Bits
  import opened Port
  import opened Timing
  import opened Machine
  import opened Encoder
  import opened Frame
  import opened ByteLoop

  /** The two branches of the `__MK20DX128__` test. */
  datatype Target = Avr | Teensy3

  /**
   * What `showRGB` sends on `target` for `nLeds` LEDs of `data`. The AVR
   * path sends every byte of the frame; the Teensy 3 path, as written,
   * sends all but the last byte, and with no LEDs reads past the buffer.
   */
  function SentBits(target: Target, data: seq<bv8>, nLeds: nat, port: bv8, t: Phases, cfg: Config): (r: Outcome)
    requires 3 * nLeds <= |data|
    requires target == Avr ==> LastFits(t, cfg.c, EndOfLoop) && cfg.mask != 0
    ensures target == Avr ==> r == Emitted(MsbFirst(data[..3 * nLeds])) && |r.bits| == 24 * nLeds
    ensures target == Teensy3 ==> (r.Overrun? <==> nLeds == 0)
    ensures target == Teensy3 && nLeds > 0 ==> r == Emitted(MsbFirst(data[..3 * nLeds - 1]))
  {
    match target
    case Avr => Emitted(ShowRgb(data, nLeds, port, false, t, cfg).tested)
    case Teensy3 => AsWritten(data, nLeds)
  }

  /**
   * The two builds do not send the same frame: for `nLeds > 0` the AVR
   * bits are the Teensy bits followed by the last byte's eight bits, and
   * for `nLeds == 0` the AVR build sends nothing while the Teensy build
   * reads past the buffer. The AVR stream lets the receiver rebuild the
   * whole frame.
   */
  lemma {:induction false} TargetsCompared(data: seq<bv8>, nLeds: nat, port: bv8, t: Phases, cfg: Config)
    requires 3 * nLeds <= |data|
    requires LastFits(t, cfg.c, EndOfLoop)
    requires cfg.mask != 0
    ensures Unpack(SentBits(Avr, data, nLeds, port, t, cfg).bits) == data[..3 * nLeds]
    ensures nLeds == 0 ==> SentBits(Avr, data, nLeds, port, t, cfg) == Emitted([])
    ensures nLeds == 0 ==> SentBits(Teensy3, data, nLeds, port, t, cfg).Overrun?
    ensures nLeds > 0 ==> SentBits(Teensy3, data, nLeds, port, t, cfg).Emitted?
    ensures nLeds > 0 ==>
      SentBits(Avr, data, nLeds, port, t, cfg).bits
        == SentBits(Teensy3, data, nLeds, port, t, cfg).bits + ByteBits(data[3 * nLeds - 1])
  {
    var avr := SentBits(Avr, data, nLeds, port, t, cfg);
    var teensy := SentBits(Teensy3, data, nLeds, port, t, cfg);
    StreamsCompared(data, nLeds, avr, teensy);
  }

  /** The comparison of the two streams, from what each build is known to send. */
  lemma StreamsCompared(data: seq<bv8>, nLeds: nat, avr: Outcome, teensy: Outcome)
    requires 3 * nLeds <= |data|
    requires avr == Emitted(MsbFirst(data[..3 * nLeds]))
    requires teensy.Overrun? <==> nLeds == 0
    requires nLeds > 0 ==> teensy == Emitted(MsbFirst(data[..3 * nLeds - 1]))
    ensures Unpack(avr.bits) == data[..3 * nLeds]
    ensures nLeds == 0 ==> avr == Emitted([]) && teensy.Overrun?
    ensures nLeds > 0 ==> teensy.Emitted? && avr.bits == teensy.bits + ByteBits(data[3 * nLeds - 1])
  {
    UnpackMsbFirst(data[..3 * nLeds]);
    if nLeds > 0 {
      MsbFirstSnoc(data, 3 * nLeds);
    } else {
      assert data[..0] == [];
    }
  }
}

=== FILE: encoder.dfy ===
/**
 * The three-phase bit encoder of the unrolled AVR path: `bitSetFast<N>` and
 * `bitSetLast<N, ADJ>` as programs for the abstract core, and the waveform
 * they produce.
 */
module Encoder {
  import opened Bits
  import opened Port
  import opened Timing
  import opened Machine

  /** Every delay argument of `bitSetLast<N, ADJ>` is non-negative. */
  predicate LastFits(t: Phases, c: nat, adj: nat) {
    t.t1 >= c + 1 && t.t2 >= c && t.t3 >= c + adj
  }

  /** Every delay argument of `bitSetFast<N>` is non-negative: `bitSetLast` with nothing cut. */
  predicate FastFits(t: Phases, c: nat) {
    LastFits(t, c, 0)
  }

  /**
   * `bitSetFast<k>`: raise, wait, drop if bit `k` of `b` is clear, wait,
   * drop, wait. Its delays make a 0 take exactly T1 + T2 + T3 cycles; a 1
   * trades the skipped store for the extra `sbrs` cycle.
   */
  function BitSetFast(k: BitIndex, t: Phases, c: nat, hi: bv8, lo: bv8): (p: seq<Instr>)
    requires FastFits(t, c)
    ensures forall b: bv8 :: ProgramCost(p, b, c) + (if BitOf(b, k) then c else 0)
                          == t.t1 + t.t2 + t.t3 + (if BitOf(b, k) then 1 else 0)
  {
    var p := [Store(hi), Delay(t.t1 - (c + 1)), SkipIfSet(k, lo),
              Delay(t.t2 - c),
              Store(lo), Delay(t.t3 - c)];
    SixCost(p, c);
    p
  }

  /** The cost of a six-instruction program, one instruction at a time. */
  lemma SixCost(p: seq<Instr>, c: nat)
    requires |p| == 6
    ensures forall b: bv8 ::
      ProgramCost(p, b, c) == Cost(p[0], b, c) + Cost(p[1], b, c) + Cost(p[2], b, c)
                            + Cost(p[3], b, c) + Cost(p[4], b, c) + Cost(p[5], b, c)
  {
    forall b: bv8
      ensures ProgramCost(p, b, c)
           == Cost(p[0], b, c) + Cost(p[1], b, c) + Cost(p[2], b, c)
            + Cost(p[3], b, c) + Cost(p[4], b, c) + Cost(p[5], b, c)
    {
      assert ProgramCost(p, b, c) == Cost(p[0], b, c) + ProgramCost(p[1..], b, c);
      assert ProgramCost(p[1..], b, c) == Cost(p[1], b, c) + ProgramCost(p[2..], b, c);
      assert ProgramCost(p[2..], b, c) == Cost(p[2], b, c) + ProgramCost(p[3..], b, c);
      assert ProgramCost(p[3..], b, c) == Cost(p[3], b, c) + ProgramCost(p[4..], b, c);
      assert ProgramCost(p[4..], b, c) == Cost(p[4], b, c) + ProgramCost(p[5..], b, c);
      assert ProgramCost(p[5..], b, c) == Cost(p[5], b, c) + ProgramCost(p[6..], b, c);
      assert p[6..] == [];
    }
  }

  /** `bitSetLast<k, adj>`: `bitSetFast<k>` with the phase-3 delay `adj` cycles shorter. */
  function BitSetLast(k: BitIndex, adj: nat, t: Phases, c: nat, hi: bv8, lo: bv8): (p: seq<Instr>)
    requires LastFits(t, c, adj)
    ensures |p| == |BitSetFast(k, t, c, hi, lo)|
    ensures p[..5] == BitSetFast(k, t, c, hi, lo)[..5]
    ensures p[5].Delay? && BitSetFast(k, t, c, hi, lo)[5].Delay?
    ensures p[5].n + adj == BitSetFast(k, t, c, hi, lo)[5].n
  {
    [Store(hi), Delay(t.t1 - (c + 1)), SkipIfSet(k, lo),
     Delay(t.t2 - c),
     Store(lo), Delay(t.t3 - (c + adj))]
  }

  /**
   * The intended waveform of one bit whose phase 3 is cut `adj` cycles short:
   * a 0 is high for phase 1 and low for phases 2 and 3; a 1 is high for
   * phases 1 and 2 and low for phase 3. The skipping `sbrs` costs one cycle
   * more than the `sbrs` it replaces and the skipped `fastset` costs `c`, so
   * a 1 is high `1 - c` cycles longer than T1 + T2.
   */
  function BitWave(bit: bool, adj: nat, t: Phases, c: nat): seq<Pulse>
    requires LastFits(t, c, adj)
  {
    if bit then [Pulse(true, t.t1 + t.t2 + 1 - c), Pulse(false, t.t3 - adj)]
    else [Pulse(true, t.t1), Pulse(false, t.t2 + t.t3 - adj)]
  }

  /** The waveform of a bit stream sent with full-length phase 3s. */
  function BitsWave(bits: seq<bool>, t: Phases, c: nat): (w: seq<Pulse>)
    requires LastFits(t, c, 0)
    ensures |w| == 2 * |bits|
  {
    if |bits| == 0 then [] else BitWave(bits[0], 0, t, c) + BitsWave(bits[1..], t, c)
  }

  /** A line that is low, or the end of a low pulse. */
  predicate EndsLow(w: seq<Pulse>) {
    |w| > 0 && !w[|w| - 1].high
  }

  /**
   * One bit: starting with the line low, the line goes high at phase 1,
   * drops at the phase-2 write when the tested bit is 0 and at the phase-3
   * write when it is 1, and ends low; the tested bit is recorded.
   */
  lemma ExecBitSetLast(k: BitIndex, adj: nat, t: Phases, hi: bv8, lo: bv8,
                       s: State, data: seq<bv8>, cfg: Config)
    requires LastFits(t, cfg.c, adj)
    requires Level(hi, cfg.mask) && !Level(lo, cfg.mask)
    requires EndsLow(s.wave)
    ensures Exec(BitSetLast(k, adj, t, cfg.c, hi, lo), s, data, cfg)
         == s.(reg := lo, wave := s.wave + BitWave(BitOf(s.b, k), adj, t, cfg.c),
               tested := s.tested + [BitOf(s.b, k)])
  {
    var p := BitSetLast(k, adj, t, cfg.c, hi, lo);
    ExecSix(p, s, data, cfg);
    if BitOf(s.b, k) {
      BitOneSteps(k, adj, t, hi, lo, s, data, cfg);
    } else {
      BitZeroSteps(k, adj, t, hi, lo, s, data, cfg);
    }
  }

  lemma BitOneSteps(k: BitIndex, adj: nat, t: Phases, hi: bv8, lo: bv8,
                    s: State, data: seq<bv8>, cfg: Config)
    requires LastFits(t, cfg.c, adj)
    requires Level(hi, cfg.mask) && !Level(lo, cfg.mask)
    requires EndsLow(s.wave) && BitOf(s.b, k)
    ensures var p := BitSetLast(k, adj, t, cfg.c, hi, lo);
      Step(p[5], Step(p[4], Step(p[3], Step(p[2], Step(p[1], Step(p[0], s, data, cfg),
        data, cfg), data, cfg), data, cfg), data, cfg), data, cfg)
      == s.(reg := lo, wave := s.wave + BitWave(true, adj, t, cfg.c), tested := s.tested + [true])
  {
    var p := BitSetLast(k, adj, t, cfg.c, hi, lo);
    BitOneHead(k, adj, t, hi, lo, s, data, cfg);
    var u := Step(p[2], Step(p[1], Step(p[0], s, data, cfg), data, cfg), data, cfg);
    BitOneTail(k, adj, t, hi, lo, s.wave, u, data, cfg);
  }

  /** Phase 1 of a 1: the line rises and stays high through the skipping `sbrs`. */
  lemma BitOneHead(k: BitIndex, adj: nat, t: Phases, hi: bv8, lo: bv8,
                   s: State, data: seq<bv8>, cfg: Config)
    requires LastFits(t, cfg.c, adj)
    requires Level(hi, cfg.mask)
    requires EndsLow(s.wave) && BitOf(s.b, k)
    ensures var p := BitSetLast(k, adj, t, cfg.c, hi, lo);
      Step(p[2], Step(p[1], Step(p[0], s, data, cfg), data, cfg), data, cfg)
      == s.(reg := hi, wave := s.wave + [Pulse(true, t.t1 + 1)], tested := s.tested + [true])
  {
    var c := cfg.c;
    var w := s.wave;
    var p := BitSetLast(k, adj, t, c, hi, lo);
    var s1 := Step(p[0], s, data, cfg);
    assert s1.wave == w + [Pulse(true, c)];
    var s2 := Step(p[1], s1, data, cfg);
    ExtendLast(w, Pulse(true, c), t.t1 - (c + 1));
    ExtendLast(w, Pulse(true, t.t1 - 1), SbrsSkipCycles);
  }

  /** Phases 2 and 3 of a 1: the line stays high until the second `lo` store. */
  lemma BitOneTail(k: BitIndex, adj: nat, t: Phases, hi: bv8, lo: bv8,
                   w: seq<Pulse>, u: State, data: seq<bv8>, cfg: Config)
    requires LastFits(t, cfg.c, adj)
    requires !Level(lo, cfg.mask)
    requires u.wave == w + [Pulse(true, t.t1 + 1)]
    ensures var p := BitSetLast(k, adj, t, cfg.c, hi, lo);
      Step(p[5], Step(p[4], Step(p[3], u, data, cfg), data, cfg), data, cfg)
      == u.(reg := lo, wave := w + BitWave(true, adj, t, cfg.c))
  {
    var c := cfg.c;
    var p := BitSetLast(k, adj, t, c, hi, lo);
    assert p[3] == Delay(t.t2 - c) && p[4] == Store(lo) && p[5] == Delay(t.t3 - (c + adj));
    var high := Pulse(true, t.t1 + 1 + t.t2 - c);
    ExtendLast(w, Pulse(true, t.t1 + 1), t.t2 - c);
    var s4 := u.(wave := w + [high]);
    assert Step(p[3], u, data, cfg) == s4;
    BitOneLow(t, lo, w, high, s4, adj, data, cfg);
  }

  /** The second `lo` store of a 1 drops the line for the rest of phase 3. */
  lemma BitOneLow(t: Phases, lo: bv8, w: seq<Pulse>, high: Pulse, s4: State, adj: nat, data: seq<bv8>, cfg: Config)
    requires LastFits(t, cfg.c, adj)
    requires !Level(lo, cfg.mask)
    requires high == Pulse(true, t.t1 + 1 + t.t2 - cfg.c)
    requires s4.wave == w + [high]
    ensures Step(Delay(t.t3 - (cfg.c + adj)), Step(Store(lo), s4, data, cfg), data, cfg)
         == s4.(reg := lo, wave := w + BitWave(true, adj, t, cfg.c))
  {
    var c := cfg.c;
    PutLast(w, high, false, c);
    var s5 := s4.(reg := lo, wave := w + [high, Pulse(false, c)]);
    assert Step(Store(lo), s4, data, cfg) == s5;
    assert w + [high, Pulse(false, c)] == (w + [high]) + [Pulse(false, c)];
    ExtendLast(w + [high], Pulse(false, c), t.t3 - (c + adj));
    assert (w + [high]) + [Pulse(false, c + (t.t3 - (c + adj)))] == w + BitWave(true, adj, t, c);
  }

  lemma BitZeroSteps(k: BitIndex, adj: nat, t: Phases, hi: bv8, lo: bv8,
                     s: State, data: seq<bv8>, cfg: Config)
    requires LastFits(t, cfg.c, adj)
    requires Level(hi, cfg.mask) && !Level(lo, cfg.mask)
    requires EndsLow(s.wave) && !BitOf(s.b, k)
    ensures var p := BitSetLast(k, adj, t, cfg.c, hi, lo);
      Step(p[5], Step(p[4], Step(p[3], Step(p[2], Step(p[1], Step(p[0], s, data, cfg),
        data, cfg), data, cfg), data, cfg), data, cfg), data, cfg)
      == s.(reg := lo, wave := s.wave + BitWave(false, adj, t, cfg.c), tested := s.tested + [false])
  {
    var p := BitSetLast(k, adj, t, cfg.c, hi, lo);
    BitZeroHead(k, adj, t, hi, lo, s, data, cfg);
    var u := Step(p[2], Step(p[1], Step(p[0], s, data, cfg), data, cfg), data, cfg);
    BitZeroTail(k, adj, t, hi, lo, s.wave, u, data, cfg);
  }

  /** Phase 1 of a 0: the line rises, and the `lo` store that `sbrs` does not skip drops it. */
  lemma BitZeroHead(k: BitIndex, adj: nat, t: Phases, hi: bv8, lo: bv8,
                    s: State, data: seq<bv8>, cfg: Config)
    requires LastFits(t, cfg.c, adj)
    requires Level(hi, cfg.mask) && !Level(lo, cfg.mask)
    requires EndsLow(s.wave) && !BitOf(s.b, k)
    ensures var p := BitSetLast(k, adj, t, cfg.c, hi, lo);
      Step(p[2], Step(p[1], Step(p[0], s, data, cfg), data, cfg), data, cfg)
      == s.(reg := lo, wave := s.wave + [Pulse(true, t.t1), Pulse(false, cfg.c)], tested := s.tested + [false])
  {
    var c := cfg.c;
    var w := s.wave;
    var p := BitSetLast(k, adj, t, c, hi, lo);
    var s1 := Step(p[0], s, data, cfg);
    assert s1.wave == w + [Pulse(true, c)];
    var s2 := Step(p[1], s1, data, cfg);
    ExtendLast(w, Pulse(true, c), t.t1 - (c + 1));
    ExtendLast(w, Pulse(true, t.t1 - 1), SbrsCycles);
    PutLast(w, Pulse(true, t.t1), false, c);
  }

  /** Phases 2 and 3 of a 0: the line stays low. */
  lemma BitZeroTail(k: BitIndex, adj: nat, t: Phases, hi: bv8, lo: bv8,
                    w: seq<Pulse>, u: State, data: seq<bv8>, cfg: Config)
    requires LastFits(t, cfg.c, adj)
    requires !Level(lo, cfg.mask)
    requires u.wave == w + [Pulse(true, t.t1), Pulse(false, cfg.c)]
    ensures var p := BitSetLast(k, adj, t, cfg.c, hi, lo);
      Step(p[5], Step(p[4], Step(p[3], u, data, cfg), data, cfg), data, cfg)
      == u.(reg := lo, wave := w + BitWave(false, adj, t, cfg.c))
  {
    var c := cfg.c;
    var p := BitSetLast(k, adj, t, c, hi, lo);
    assert p[3] == Delay(t.t2 - c) && p[4] == Store(lo) && p[5] == Delay(t.t3 - (c + adj));
    var w1 := w + [Pulse(true, t.t1)];
    assert u.wave == w1 + [Pulse(false, c)];
    ExtendLast(w1, Pulse(false, c), t.t2 - c);
    var s4 := u.(wave := w1 + [Pulse(false, t.t2)]);
    assert Step(p[3], u, data, cfg) == s4;
    BitZeroLow(t, lo, w, w1, s4, adj, data, cfg);
  }

  /** The second `lo` store of a 0 keeps the line low for the rest of phase 3. */
  lemma BitZeroLow(t: Phases, lo: bv8, w: seq<Pulse>, w1: seq<Pulse>, s4: State, adj: nat, data: seq<bv8>, cfg: Config)
    requires LastFits(t, cfg.c, adj)
    requires !Level(lo, cfg.mask)
    requires w1 == w + [Pulse(true, t.t1)]
    requires s4.wave == w1 + [Pulse(false, t.t2)]
    ensures Step(Delay(t.t3 - (cfg.c + adj)), Step(Store(lo), s4, data, cfg), data, cfg)
         == s4.(reg := lo, wave := w + BitWave(false, adj, t, cfg.c))
  {
    var c := cfg.c;
    PutLast(w1, Pulse(false, t.t2), false, c);
    var s5 := s4.(reg := lo, wave := w1 + [Pulse(false, t.t2 + c)]);
    assert Step(Store(lo), s4, data, cfg) == s5;
    ExtendLast(w1, Pulse(false, t.t2 + c), t.t3 - (c + adj));
    assert w1 + [Pulse(false, t.t2 + c + (t.t3 - (c + adj)))] == w + BitWave(false, adj, t, c);
  }

  lemma ExecBitSetFast(k: BitIndex, t: Phases, hi: bv8, lo: bv8,
                       s: State, data: seq<bv8>, cfg: Config)
    requires FastFits(t, cfg.c)
    requires Level(hi, cfg.mask) && !Level(lo, cfg.mask)
    requires EndsLow(s.wave)
    ensures Exec(BitSetFast(k, t, cfg.c, hi, lo), s, data, cfg)
         == s.(reg := lo, wave := s.wave + BitWave(BitOf(s.b, k), 0, t, cfg.c),
               tested := s.tested + [BitOf(s.b, k)])
  {
    assert BitSetFast(k, t, cfg.c, hi, lo) == BitSetLast(k, 0, t, cfg.c, hi, lo);
    ExecBitSetLast(k, 0, t, hi, lo, s, data, cfg);
  }

  /**
   * One byte of the AVR loop body from bit `k` down: `bitSetFast<k>` ...
   * `bitSetFast<1>` then `bitSetLast<0, END_OF_LOOP>`.
   */
  function BitsFrom(k: BitIndex, t: Phases, c: nat, hi: bv8, lo: bv8): (p: seq<Instr>)
    requires LastFits(t, c, EndOfLoop)
    ensures FetchesWithin(p, 0)
    ensures forall j :: 0 <= j < |p| ==> !p[j].Cli? && !p[j].Sei? && !p[j].Fetch? && !p[j].Done?
    ensures forall j :: 0 <= j < |p| && p[j].Store? ==> p[j].v == hi || p[j].v == lo
    ensures forall j :: 0 <= j < |p| && p[j].SkipIfSet? ==> p[j].v == lo
  {
    if k == 0 then BitSetLast(0, EndOfLoop, t, c, hi, lo)
    else BitSetFast(k, t, c, hi, lo) + BitsFrom(k - 1, t, c, hi, lo)
  }

  /**
   * The unrolled AVR loop body: `bitSetFast<7>` ... `bitSetFast<1>`, then
   * `bitSetLast<0, END_OF_LOOP>`, six instructions each.
   */
  function ByteProgram(t: Phases, c: nat, hi: bv8, lo: bv8): (p: seq<Instr>)
    requires LastFits(t, c, EndOfLoop)
    ensures |p| == 48
    ensures p == BitSetFast(7, t, c, hi, lo) + BitSetFast(6, t, c, hi, lo) + BitSetFast(5, t, c, hi, lo)
               + BitSetFast(4, t, c, hi, lo) + BitSetFast(3, t, c, hi, lo) + BitSetFast(2, t, c, hi, lo)
               + BitSetFast(1, t, c, hi, lo) + BitSetLast(0, EndOfLoop, t, c, hi, lo)
  {
    assert BitsFrom(1, t, c, hi, lo) == BitSetFast(1, t, c, hi, lo) + BitSetLast(0, EndOfLoop, t, c, hi, lo);
    assert BitsFrom(2, t, c, hi, lo) == BitSetFast(2, t, c, hi, lo) + BitsFrom(1, t, c, hi, lo);
    assert BitsFrom(3, t, c, hi, lo) == BitSetFast(3, t, c, hi, lo) + BitsFrom(2, t, c, hi, lo);
    assert BitsFrom(4, t, c, hi, lo) == BitSetFast(4, t, c, hi, lo) + BitsFrom(3, t, c, hi, lo);
    assert BitsFrom(5, t, c, hi, lo) == BitSetFast(5, t, c, hi, lo) + BitsFrom(4, t, c, hi, lo);
    assert BitsFrom(6, t, c, hi, lo) == BitSetFast(6, t, c, hi, lo) + BitsFrom(5, t, c, hi, lo);
    assert BitsFrom(7, t, c, hi, lo) == BitSetFast(7, t, c, hi, lo) + BitsFrom(6, t, c, hi, lo);
    BitsFrom(7, t, c, hi, lo)
  }

  /** The loop-control cycles that follow the last bit complete its phase 3. */
  lemma ExtendCompletesBit(w: seq<Pulse>, bit: bool, adj: nat, t: Phases, c: nat)
    requires LastFits(t, c, adj)
    ensures Extend(w + BitWave(bit, adj, t, c), adj) == w + BitWave(bit, 0, t, c)
  {
    var b := BitWave(bit, adj, t, c);
    assert w + b == (w + [b[0]]) + [b[1]];
    ExtendLast(w + [b[0]], b[1], adj);
  }

  lemma {:induction false} BitsWaveAppend(a: seq<bool>, b: seq<bool>, t: Phases, c: nat)
    requires LastFits(t, c, 0)
    ensures BitsWave(a + b, t, c) == BitsWave(a, t, c) + BitsWave(b, t, c)
  {
    if |a| == 0 {
      assert a + b == b;
    } else {
      assert (a + b)[1..] == a[1..] + b;
      BitsWaveAppend(a[1..], b, t, c);
    }
  }

  /**
   * Bits `k` down to 0 of the byte in `b`: once the loop-control cycles
   * (`END_OF_LOOP`) that follow are added, the waveform is exactly that of
   * the bits, back to back.
   */
  lemma {:induction false} ExecBitsFrom(k: BitIndex, t: Phases, hi: bv8, lo: bv8,
                                        s: State, data: seq<bv8>, cfg: Config)
    requires LastFits(t, cfg.c, EndOfLoop)
    requires Level(hi, cfg.mask) && !Level(lo, cfg.mask)
    requires EndsLow(s.wave)
    ensures var r := Exec(BitsFrom(k, t, cfg.c, hi, lo), s, data, cfg);
      && r.irq == s.irq && r.b == s.b && r.reg == lo
      && r.tested == s.tested + BitsDown(s.b, k)
      && Extend(r.wave, EndOfLoop) == s.wave + BitsWave(BitsDown(s.b, k), t, cfg.c)
  {
    if k == 0 {
      ExecLastBit(t, hi, lo, s, data, cfg);
    } else {
      var bk := BitOf(s.b, k);
      var s1 := s.(reg := lo, wave := s.wave + BitWave(bk, 0, t, cfg.c), tested := s.tested + [bk]);
      ExecBitsFrom(k - 1, t, hi, lo, s1, data, cfg);
      ExecFastFirst(k, t, hi, lo, s, data, cfg);
      var r := Exec(BitsFrom(k - 1, t, cfg.c, hi, lo), s1, data, cfg);
      PrependBit(k, t, cfg.c, s.b, s.tested, s.wave, r.tested, r.wave);
    }
  }

  /** The sequence algebra of the inductive step of `ExecBitsFrom`. */
  lemma PrependBit(k: BitIndex, t: Phases, c: nat, x: bv8,
                   tested: seq<bool>, wave: seq<Pulse>, tested': seq<bool>, wave': seq<Pulse>)
    requires k > 0
    requires LastFits(t, c, EndOfLoop)
    requires tested' == (tested + [BitOf(x, k)]) + BitsDown(x, k - 1)
    requires Extend(wave', EndOfLoop) == (wave + BitWave(BitOf(x, k), 0, t, c)) + BitsWave(BitsDown(x, k - 1), t, c)
    ensures tested' == tested + BitsDown(x, k)
    ensures Extend(wave', EndOfLoop) == wave + BitsWave(BitsDown(x, k), t, c)
  {
    var bits := BitsDown(x, k);
    assert bits == [BitOf(x, k)] + BitsDown(x, k - 1);
    assert BitsWave(bits, t, c) == BitWave(BitOf(x, k), 0, t, c) + BitsWave(BitsDown(x, k - 1), t, c);
  }

  lemma ExecFastFirst(k: BitIndex, t: Phases, hi: bv8, lo: bv8,
                      s: State, data: seq<bv8>, cfg: Config)
    requires k > 0
    requires LastFits(t, cfg.c, EndOfLoop)
    requires Level(hi, cfg.mask) && !Level(lo, cfg.mask)
    requires EndsLow(s.wave)
    ensures var bk := BitOf(s.b, k);
      Exec(BitsFrom(k, t, cfg.c, hi, lo), s, data, cfg)
      == Exec(BitsFrom(k - 1, t, cfg.c, hi, lo),
              s.(reg := lo, wave := s.wave + BitWave(bk, 0, t, cfg.c), tested := s.tested + [bk]),
              data, cfg)
  {
    var c := cfg.c;
    var fast := BitSetFast(k, t, c, hi, lo);
    var rest := BitsFrom(k - 1, t, c, hi, lo);
    assert BitsFrom(k, t, c, hi, lo) == fast + rest;
    ExecAppend(fast, rest, s, data, cfg);
    ExecBitSetFast(k, t, hi, lo, s, data, cfg);
  }

  lemma ExecLastBit(t: Phases, hi: bv8, lo: bv8, s: State, data: seq<bv8>, cfg: Config)
    requires LastFits(t, cfg.c, EndOfLoop)
    requires Level(hi, cfg.mask) && !Level(lo, cfg.mask)
    requires EndsLow(s.wave)
    ensures var r := Exec(BitsFrom(0, t, cfg.c, hi, lo), s, data, cfg);
      && r.irq == s.irq && r.b == s.b && r.reg == lo
      && r.tested == s.tested + BitsDown(s.b, 0)
      && Extend(r.wave, EndOfLoop) == s.wave + BitsWave(BitsDown(s.b, 0), t, cfg.c)
  {
    ExecBitSetLast(0, EndOfLoop, t, hi, lo, s, data, cfg);
    ExtendCompletesBit(s.wave, BitOf(s.b, 0), EndOfLoop, t, cfg.c);
    assert BitsWave(BitsDown(s.b, 0), t, cfg.c) == BitWave(BitOf(s.b, 0), 0, t, cfg.c);
  }

  /** The length of one bit: T1 + T2 + T3 for a 0, and `1 - c` cycles more for a 1. */
  lemma BitPeriod(bit: bool, t: Phases, c: nat)
    requires LastFits(t, c, 0)
    ensures Duration(BitWave(bit, 0, t, c)) == t.t1 + t.t2 + t.t3 + (if bit then 1 - c else 0)
  {
    var w := BitWave(bit, 0, t, c);
    DurationPair(w[0], w[1]);
    assert w == [w[0], w[1]];
  }

  /** Both bit values take equally long exactly when one `fastset` costs one cycle. */
  lemma BitPeriodConstantIffOneCycleStore(t: Phases, c: nat)
    requires LastFits(t, c, 0)
    ensures Duration(BitWave(true, 0, t, c)) == Duration(BitWave(false, 0, t, c)) <==> c == 1
  {
    BitPeriod(true, t, c);
    BitPeriod(false, t, c);
  }

  /** With one-cycle stores a stream of `n` bits lasts `n * (T1 + T2 + T3)` cycles, with no gaps. */
  lemma {:induction false} BitsWaveDuration(bits: seq<bool>, t: Phases)
    requires LastFits(t, 1, 0)
    ensures Duration(BitsWave(bits, t, 1)) == |bits| * (t.t1 + t.t2 + t.t3)
  {
    if |bits| > 0 {
      var period := t.t1 + t.t2 + t.t3;
      var n := |bits| - 1;
      BitsWaveDuration(bits[1..], t);
      BitPeriod(bits[0], t, 1);
      DurationAppend(BitWave(bits[0], 0, t, 1), BitsWave(bits[1..], t, 1));
      assert Duration(BitsWave(bits, t, 1)) == period + n * period;
      MulSucc(n, period);
    }
  }

  lemma MulSucc(n: int, m: int)
    ensures (n + 1) * m == m + n * m
  {
  }
}

=== FILE: feasibility.dfy ===
/**
 * Whether the minimums `NO_TIME` demands leave every delay of the AVR
 * encoder non-negative. They do for `bitSetFast`, but not for the last bit
 * of a byte, whose phase-3 delay also gives up `END_OF_LOOP` cycles.
 */
module Feasibility {
  import opened Timing
  import opened Machine
  import opened Encoder

  /** With a store of at most two cycles, phases `NO_TIME` accepts fit `bitSetFast`. */
  lemma NoTimeGuardsFast(a: int, b: int, cNs: int, fcpu: nat, c: nat)
    requires NoTime(a, b, cNs, fcpu) == Some(false)
    requires c <= MaxFastSetCycles
    ensures PhasesOf(a, b, cNs, fcpu).Some?
    ensures FastFits(PhasesOf(a, b, cNs, fcpu).value, c)
  {
  }

  /**
   * At 16 MHz (62 ns per cycle) targets of 186, 124 and 372 ns give phases
   * 3, 2 and 6 cycles. `NO_TIME` accepts them, yet with a one-cycle `out`
   * the last bit's phase-3 delay is `6 - (1 + 6) = -1` cycles.
   */
  lemma NoTimeAdmitsNegativeLastDelay()
    ensures PhasesOf(186, 124, 372, 16_000_000) == Some(Phases(3, 2, 6))
    ensures NoTime(186, 124, 372, 16_000_000) == Some(false)
    ensures !LastFits(Phases(3, 2, 6), 1, EndOfLoop)
    ensures Phases(3, 2, 6).t3 - (1 + EndOfLoop) == -1
  {
    assert NsPerCycle(16_000_000) == Some(62);
  }

  /** The phase-3 minimum that leaves room for the dearest store and the loop's end. */
  const MinLastT3: int := MaxFastSetCycles + EndOfLoop

  /** `NO_TIME` with its phase-3 threshold raised to `MinLastT3`. */
  function NoTimeFixed(a: int, b: int, cNs: int, fcpu: nat): (r: Option<bool>)
    ensures r.Some? <==> 1 <= fcpu / 1000000 <= 1000
    ensures r == Some(false) <==>
      PhasesOf(a, b, cNs, fcpu).Some? && MeetsMinimums(PhasesOf(a, b, cNs, fcpu).value)
      && PhasesOf(a, b, cNs, fcpu).value.t3 >= MinLastT3
  {
    match (Ns(a, fcpu), Ns(b, fcpu), Ns(cNs, fcpu))
    case (Some(t1), Some(t2), Some(t3)) => Some(t1 < MinT1 || t2 < MinT2 || t3 < MinLastT3)
    case _ => None
  }

  /** The corrected test accepts exactly the phases that fit `bitSetLast` with a two-cycle store. */
  lemma NoTimeFixedExact(a: int, b: int, cNs: int, fcpu: nat)
    ensures NoTimeFixed(a, b, cNs, fcpu) == Some(false) <==>
      PhasesOf(a, b, cNs, fcpu).Some? && LastFits(PhasesOf(a, b, cNs, fcpu).value, MaxFastSetCycles, EndOfLoop)
  {
  }

  /** Phases the corrected test accepts fit both encoders for every store cost up to two cycles. */
  lemma NoTimeFixedGuardsLast(a: int, b: int, cNs: int, fcpu: nat, c: nat)
    requires NoTimeFixed(a, b, cNs, fcpu) == Some(false)
    requires c <= MaxFastSetCycles
    ensures PhasesOf(a, b, cNs, fcpu).Some?
    ensures LastFits(PhasesOf(a, b, cNs, fcpu).value, c, EndOfLoop)
    ensures FastFits(PhasesOf(a, b, cNs, fcpu).value, c)
  {
    NoTimeFixedExact(a, b, cNs, fcpu);
  }

  /** The corrected test only rejects more: what it accepts, `NO_TIME` accepts too. */
  lemma NoTimeFixedStricter(a: int, b: int, cNs: int, fcpu: nat)
    ensures NoTimeFixed(a, b, cNs, fcpu) == Some(false) ==> NoTime(a, b, cNs, fcpu) == Some(false)
    ensures NoTimeFixed(a, b, cNs, fcpu).Some? <==> NoTime(a, b, cNs, fcpu).Some?
  {
  }

  /** The 16 MHz phases above are rejected by the corrected test. */
  lemma NoTimeFixedRejectsExample()
    ensures NoTimeFixed(186, 124, 372, 16_000_000) == Some(true)
  {
    assert NsPerCycle(16_000_000) == Some(62);
  }
}

=== FILE: frame.dfy ===
/**
 * `showRGB` on the unrolled AVR path: interrupts off, `hi`/`lo` computed
 * once from the port register, the register set to `lo`, then for each of
 * the `3 * nLeds` bytes a loop test, a load and the eight bit-writers, and
 * interrupts back on.
 */
module Frame {
  import opened Bits
  import opened Port
  import opened Timing
  import opened Machine
  import opened Encoder

  /** The byte indices `i`, `i + 1`, ..., `end - 1`. */
  function Range(i: nat, end: nat): (r: seq<nat>)
    requires i <= end
    ensures |r| == end - i
    decreases end - i
  {
    if i == end then [] else [i] + Range(i + 1, end)
  }

  /** The buffer indices a program loads, in program order. */
  function Fetches(p: seq<Instr>): seq<nat> {
    if |p| == 0 then [] else (if p[0].Fetch? then [p[0].i] else []) + Fetches(p[1..])
  }

  lemma {:induction false} FetchesAppend(a: seq<Instr>, b: seq<Instr>)
    ensures Fetches(a + b) == Fetches(a) + Fetches(b)
  {
    if |a| == 0 {
      assert a + b == b;
    } else {
      var x, r := a[0], a[1..];
      assert a == [x] + r;
      assert a + b == [x] + (r + b);
      FetchesCons(x, r);
      FetchesCons(x, r + b);
      FetchesAppend(r, b);
    }
  }

  lemma FetchesCons(x: Instr, rest: seq<Instr>)
    ensures Fetches([x] + rest) == (if x.Fetch? then [x.i] else []) + Fetches(rest)
  {
    assert ([x] + rest)[1..] == rest;
  }

  lemma {:induction false} FetchesNone(p: seq<Instr>)
    requires forall j :: 0 <= j < |p| ==> !p[j].Fetch?
    ensures Fetches(p) == []
  {
    if |p| > 0 {
      FetchesNone(p[1..]);
    }
  }

  /** `while (data != end) { b = *data++; <eight bits> }` from byte `i` on. */
  function Loop(i: nat, end: nat, t: Phases, c: nat, hi: bv8, lo: bv8): (p: seq<Instr>)
    requires i <= end
    requires LastFits(t, c, EndOfLoop)
    ensures FetchesWithin(p, end)
    ensures forall j :: 0 <= j < |p| ==> !p[j].Cli? && !p[j].Sei?
    ensures forall j :: 0 <= j < |p| && p[j].Store? ==> p[j].v == hi || p[j].v == lo
    ensures forall j :: 0 <= j < |p| && p[j].SkipIfSet? ==> p[j].v == lo
    decreases end - i
  {
    if i == end then [Done]
    else [Fetch(i)] + ByteProgram(t, c, hi, lo) + Loop(i + 1, end, t, c, hi, lo)
  }

  /**
   * The whole of `showRGB`: `cli()`, the `setup` cycles that load the mask
   * and the port and compute `end`, `hi` and `lo`, `*port = lo`, the loop
   * over the `3 * nLeds` bytes, `sei()`. Interrupts are cleared by the first
   * instruction and set again only by the last one, and every register
   * write stores `hi` or `lo`.
   */
  function FrameProgram(nLeds: nat, t: Phases, c: nat, setup: nat, hi: bv8, lo: bv8): (p: seq<Instr>)
    requires LastFits(t, c, EndOfLoop)
    ensures |p| >= 5
    ensures p[0] == Cli && p[1] == Delay(setup) && p[2] == Store(lo) && p[|p| - 1] == Sei
    ensures forall j :: 0 < j < |p| - 1 ==> !p[j].Cli? && !p[j].Sei?
    ensures forall j :: 0 <= j < |p| && p[j].Store? ==> p[j].v == hi || p[j].v == lo
    ensures forall j :: 0 <= j < |p| && p[j].SkipIfSet? ==> p[j].v == lo
    ensures FetchesWithin(p, 3 * nLeds)
  {
    Prologue(setup, lo) + Loop(0, 3 * nLeds, t, c, hi, lo) + [Sei]
  }

  /** `cli()`, the `setup` cycles before the first store, then `*port = lo`. */
  function Prologue(setup: nat, lo: bv8): seq<Instr> {
    [Cli, Delay(setup), Store(lo)]
  }

  /** Each byte `i..end` is loaded exactly once, in increasing index order. */
  lemma {:induction false} LoopFetches(i: nat, end: nat, t: Phases, c: nat, hi: bv8, lo: bv8)
    requires i <= end
    requires LastFits(t, c, EndOfLoop)
    ensures Fetches(Loop(i, end, t, c, hi, lo)) == Range(i, end)
    decreases end - i
  {
    if i == end {
      assert Fetches([Done]) == Fetches([]);
    } else {
      var byte := ByteProgram(t, c, hi, lo);
      var rest := Loop(i + 1, end, t, c, hi, lo);
      LoopFetches(i + 1, end, t, c, hi, lo);
      FetchesNone(byte);
      FetchesAppend([Fetch(i)] + byte, rest);
      FetchesAppend([Fetch(i)], byte);
      assert Fetches([Fetch(i)]) == [i] + Fetches([]);
    }
  }

  /** `showRGB` consumes `data[0 .. 3 * nLeds)` once each, in order. */
  lemma FrameFetches(nLeds: nat, t: Phases, c: nat, setup: nat, hi: bv8, lo: bv8)
    requires LastFits(t, c, EndOfLoop)
    ensures Fetches(FrameProgram(nLeds, t, c, setup, hi, lo)) == Range(0, 3 * nLeds)
  {
    var body := Loop(0, 3 * nLeds, t, c, hi, lo);
    LoopFetches(0, 3 * nLeds, t, c, hi, lo);
    FetchesAppend(Prologue(setup, lo) + body, [Sei]);
    FetchesAppend(Prologue(setup, lo), body);
    FetchesNone(Prologue(setup, lo));
    FetchesNone([Sei]);
  }

  /** The whole byte: after the next loop test the waveform is exactly the byte's bits. */
  lemma ExecByte(t: Phases, hi: bv8, lo: bv8, s: State, data: seq<bv8>, cfg: Config)
    requires LastFits(t, cfg.c, EndOfLoop)
    requires Level(hi, cfg.mask) && !Level(lo, cfg.mask)
    requires EndsLow(s.wave)
    ensures var r := Exec(ByteProgram(t, cfg.c, hi, lo), s, data, cfg);
      && r.irq == s.irq && r.reg == lo
      && r.tested == s.tested + ByteBits(s.b)
      && Extend(r.wave, EndOfLoop) == s.wave + BitsWave(ByteBits(s.b), t, cfg.c)
  {
    ExecBitsFrom(7, t, hi, lo, s, data, cfg);
  }

  /** A non-empty bit stream's waveform ends with the line low. */
  lemma BitsWaveEndsLow(bits: seq<bool>, t: Phases, c: nat)
    requires LastFits(t, c, 0) && |bits| > 0
    ensures EndsLow(BitsWave(bits, t, c))
  {
    if |bits| > 1 {
      BitsWaveEndsLow(bits[1..], t, c);
    }
  }

  /**
   * The loop from byte `i`: the line carries the bits of `data[i..end]`,
   * MSB first, back to back, each with its full T1 + T2 + T3 shape, and the
   * interrupt flag is left alone.
   */
  lemma {:induction false} ExecLoop(i: nat, end: nat, t: Phases, hi: bv8, lo: bv8,
                                    s: State, data: seq<bv8>, cfg: Config)
    requires i <= end <= |data|
    requires LastFits(t, cfg.c, EndOfLoop)
    requires Level(hi, cfg.mask) && !Level(lo, cfg.mask)
    requires EndsLow(s.wave)
    ensures var r := Exec(Loop(i, end, t, cfg.c, hi, lo), s, data, cfg);
      && r.irq == s.irq
      && r.reg == (if i == end then s.reg else lo)
      && r.tested == s.tested + MsbFirst(data[i..end])
      && r.wave == Extend(s.wave, EndOfLoop) + BitsWave(MsbFirst(data[i..end]), t, cfg.c)
    decreases end - i
  {
    if i == end {
      assert data[i..end] == [];
      ExecUnfold([Done], s, data, cfg);
    } else {
      var s2 := Exec(ByteProgram(t, cfg.c, hi, lo), Step(Fetch(i), s, data, cfg), data, cfg);
      ExecFetchByte(i, end, t, hi, lo, s, data, cfg);
      ExecLoop(i + 1, end, t, hi, lo, s2, data, cfg);
      LoopAlgebra(i, end, t, cfg.c, data, s.tested, s.wave, s2.tested, s2.wave);
    }
  }

  /** The first byte of the loop, and the rest of the loop after it. */
  lemma ExecFetchByte(i: nat, end: nat, t: Phases, hi: bv8, lo: bv8,
                      s: State, data: seq<bv8>, cfg: Config)
    requires i < end <= |data|
    requires LastFits(t, cfg.c, EndOfLoop)
    requires Level(hi, cfg.mask) && !Level(lo, cfg.mask)
    requires EndsLow(s.wave)
    ensures var s2 := Exec(ByteProgram(t, cfg.c, hi, lo), Step(Fetch(i), s, data, cfg), data, cfg);
      && Exec(Loop(i, end, t, cfg.c, hi, lo), s, data, cfg) == Exec(Loop(i + 1, end, t, cfg.c, hi, lo), s2, data, cfg)
      && s2.irq == s.irq && s2.reg == lo
      && s2.tested == s.tested + ByteBits(data[i])
      && Extend(s2.wave, EndOfLoop) == Extend(s.wave, EndOfLoop) + BitsWave(ByteBits(data[i]), t, cfg.c)
      && EndsLow(s2.wave)
  {
    var s1 := Step(Fetch(i), s, data, cfg);
    ExecLoopUnfold(i, end, t, hi, lo, s, data, cfg);
    ExecByte(t, hi, lo, s1, data, cfg);
    var s2 := Exec(ByteProgram(t, cfg.c, hi, lo), s1, data, cfg);
    BitsWaveEndsLow(ByteBits(data[i]), t, cfg.c);
    assert |Extend(s2.wave, EndOfLoop)| == |s2.wave|;
  }

  /** The loop from byte `i` is a fetch, the byte's bits, then the loop from byte `i + 1`. */
  lemma ExecLoopUnfold(i: nat, end: nat, t: Phases, hi: bv8, lo: bv8,
                       s: State, data: seq<bv8>, cfg: Config)
    requires i < end <= |data|
    requires LastFits(t, cfg.c, EndOfLoop)
    ensures Exec(Loop(i, end, t, cfg.c, hi, lo), s, data, cfg)
         == Exec(Loop(i + 1, end, t, cfg.c, hi, lo),
                 Exec(ByteProgram(t, cfg.c, hi, lo), Step(Fetch(i), s, data, cfg), data, cfg), data, cfg)
  {
    var byte := ByteProgram(t, cfg.c, hi, lo);
    var rest := Loop(i + 1, end, t, cfg.c, hi, lo);
    assert Loop(i, end, t, cfg.c, hi, lo) == [Fetch(i)] + (byte + rest);
    ExecUnfold([Fetch(i)] + (byte + rest), s, data, cfg);
    assert ([Fetch(i)] + (byte + rest))[1..] == byte + rest;
    ExecAppend(byte, rest, Step(Fetch(i), s, data, cfg), data, cfg);
  }

  /** The sequence algebra of the inductive step of `ExecLoop`. */
  lemma LoopAlgebra(i: nat, end: nat, t: Phases, c: nat, data: seq<bv8>,
                    tested: seq<bool>, wave: seq<Pulse>, tested2: seq<bool>, wave2: seq<Pulse>)
    requires i < end <= |data|
    requires LastFits(t, c, EndOfLoop)
    requires tested2 == tested + ByteBits(data[i])
    requires Extend(wave2, EndOfLoop) == Extend(wave, EndOfLoop) + BitsWave(ByteBits(data[i]), t, c)
    ensures tested2 + MsbFirst(data[i + 1..end]) == tested + MsbFirst(data[i..end])
    ensures Extend(wave2, EndOfLoop) + BitsWave(MsbFirst(data[i + 1..end]), t, c)
         == Extend(wave, EndOfLoop) + BitsWave(MsbFirst(data[i..end]), t, c)
  {
    assert data[i..end][1..] == data[i + 1..end];
    assert MsbFirst(data[i..end]) == ByteBits(data[i]) + MsbFirst(data[i + 1..end]);
    BitsWaveAppend(ByteBits(data[i]), MsbFirst(data[i + 1..end]), t, c);
  }

  /** The level of the line as `showRGB` is entered, held for no cycles yet. */
  function Initial(port: bv8, irq: bool, cfg: Config): State {
    State(irq, port, 0, [Pulse(Level(port, cfg.mask), 0)], [])
  }

  /**
   * The waveform before the first bit: `cli()` and the setup cycles at the
   * level the line had on entry, then `*port = lo` (which drops the line if
   * it was high) and the first loop test and load. It lasts every cycle
   * spent before the first bit's phase 1 and ends with the line low.
   */
  function Lead(port: bv8, cfg: Config): (w: seq<Pulse>)
    ensures 0 < |w| <= 2
    ensures w[0].high == Level(port, cfg.mask) && !w[|w| - 1].high
    ensures Level(port, cfg.mask) ==> w[0] == Pulse(true, FlagCycles + cfg.setup)
    ensures Duration(w) == FlagCycles + cfg.setup + cfg.c + EndOfLoop
  {
    if Level(port, cfg.mask) then
      DurationPair(Pulse(true, FlagCycles + cfg.setup), Pulse(false, cfg.c + EndOfLoop));
      [Pulse(true, FlagCycles + cfg.setup), Pulse(false, cfg.c + EndOfLoop)]
    else
      DurationOne(Pulse(false, FlagCycles + cfg.setup + cfg.c + EndOfLoop));
      [Pulse(false, FlagCycles + cfg.setup + cfg.c + EndOfLoop)]
  }

  /**
   * `showRGB(data, nLeds)` on the AVR path. Interrupts are on afterwards, the
   * register is left at `lo`, the bits tested are those of
   * `data[0 .. 3 * nLeds)` MSB first, and the line carries exactly those
   * bits, back to back, after the lead-in.
   */
  function ShowRgb(data: seq<bv8>, nLeds: nat, port: bv8, irq: bool, t: Phases, cfg: Config): (s: State)
    requires 3 * nLeds <= |data|
    requires LastFits(t, cfg.c, EndOfLoop)
    requires cfg.mask != 0
    ensures s.irq
    ensures s.reg == Lo(port, cfg.mask)
    ensures s.tested == MsbFirst(data[..3 * nLeds]) && |s.tested| == 24 * nLeds
    ensures s.wave == Extend(Lead(port, cfg) + BitsWave(MsbFirst(data[..3 * nLeds]), t, cfg.c), FlagCycles)
  {
    var hi, lo := Hi(port, cfg.mask), Lo(port, cfg.mask);
    var p := FrameProgram(nLeds, t, cfg.c, cfg.setup, hi, lo);
    ShowRgbTrace(data, nLeds, port, irq, t, cfg);
    Exec(p, Initial(port, irq, cfg), data, cfg)
  }

  lemma ShowRgbTrace(data: seq<bv8>, nLeds: nat, port: bv8, irq: bool, t: Phases, cfg: Config)
    requires 3 * nLeds <= |data|
    requires LastFits(t, cfg.c, EndOfLoop)
    requires cfg.mask != 0
    ensures var hi, lo := Hi(port, cfg.mask), Lo(port, cfg.mask);
      var s := Exec(FrameProgram(nLeds, t, cfg.c, cfg.setup, hi, lo), Initial(port, irq, cfg), data, cfg);
      && s.irq
      && s.reg == lo
      && s.tested == MsbFirst(data[..3 * nLeds])
      && s.wave == Extend(Lead(port, cfg) + BitsWave(MsbFirst(data[..3 * nLeds]), t, cfg.c), FlagCycles)
  {
    var hi, lo := Hi(port, cfg.mask), Lo(port, cfg.mask);
    HiLoLevels(port, cfg.mask);
    var end := 3 * nLeds;
    var s0 := Initial(port, irq, cfg);
    ExecFrameParts(nLeds, t, hi, lo, s0, data, cfg);
    ExecLead(port, irq, lo, data, cfg);
    var s1 := Exec(Prologue(cfg.setup, lo), s0, data, cfg);
    ExecLoop(0, end, t, hi, lo, s1, data, cfg);
    assert data[0..end] == data[..end];
  }

  /** A frame is the lead-in, then the byte loop, then `sei()`. */
  lemma ExecFrameParts(nLeds: nat, t: Phases, hi: bv8, lo: bv8, s0: State, data: seq<bv8>, cfg: Config)
    requires 3 * nLeds <= |data|
    requires LastFits(t, cfg.c, EndOfLoop)
    ensures Exec(FrameProgram(nLeds, t, cfg.c, cfg.setup, hi, lo), s0, data, cfg)
         == Step(Sei, Exec(Loop(0, 3 * nLeds, t, cfg.c, hi, lo), Exec(Prologue(cfg.setup, lo), s0, data, cfg), data, cfg), data, cfg)
  {
    var body := Loop(0, 3 * nLeds, t, cfg.c, hi, lo);
    ExecAppend(Prologue(cfg.setup, lo), body, s0, data, cfg);
    ExecAppend(Prologue(cfg.setup, lo) + body, [Sei], s0, data, cfg);
    var s2 := Exec(body, Exec(Prologue(cfg.setup, lo), s0, data, cfg), data, cfg);
    ExecUnfold([Sei], s2, data, cfg);
  }

  /** `cli()`, the setup cycles and `*port = lo`: interrupts off, line low, register at `lo`. */
  lemma ExecLead(port: bv8, irq: bool, lo: bv8, data: seq<bv8>, cfg: Config)
    requires !Level(lo, cfg.mask)
    ensures var s1 := Exec(Prologue(cfg.setup, lo), Initial(port, irq, cfg), data, cfg);
      && !s1.irq && s1.reg == lo && s1.tested == []
      && EndsLow(s1.wave)
      && Extend(s1.wave, EndOfLoop) == Lead(port, cfg)
  {
    var l0 := Level(port, cfg.mask);
    var head := FlagCycles + cfg.setup;
    PrologueSteps(Initial(port, irq, cfg), l0, lo, data, cfg);
    if l0 {
      ExtendLast([Pulse(true, head)], Pulse(false, cfg.c), EndOfLoop);
    } else {
      ExtendLast([], Pulse(false, head + cfg.c), EndOfLoop);
    }
  }

  /** The line after the prologue, from a line at `l0` held for no cycles yet. */
  function PrologueWave(l0: bool, cfg: Config): seq<Pulse> {
    if l0 then [Pulse(true, FlagCycles + cfg.setup), Pulse(false, cfg.c)]
    else [Pulse(false, FlagCycles + cfg.setup + cfg.c)]
  }

  lemma PrologueSteps(s0: State, l0: bool, lo: bv8, data: seq<bv8>, cfg: Config)
    requires !Level(lo, cfg.mask)
    requires s0.wave == [Pulse(l0, 0)]
    ensures var r := Exec(Prologue(cfg.setup, lo), s0, data, cfg);
      && !r.irq && r.reg == lo && r.tested == s0.tested
      && r.wave == PrologueWave(l0, cfg)
  {
    var head := FlagCycles + cfg.setup;
    ExecPrologue(cfg.setup, lo, s0, data, cfg);
    var sa := Step(Cli, s0, data, cfg);
    var sd := Step(Delay(cfg.setup), sa, data, cfg);
    var sb := Step(Store(lo), sd, data, cfg);
    assert [] + [Pulse(l0, 0)] == [Pulse(l0, 0)];
    ExtendLast([], Pulse(l0, 0), FlagCycles);
    assert sa.wave == [Pulse(l0, FlagCycles)];
    assert [] + [Pulse(l0, FlagCycles)] == [Pulse(l0, FlagCycles)];
    ExtendLast([], Pulse(l0, FlagCycles), cfg.setup);
    assert sd.wave == [Pulse(l0, head)];
    assert [] + [Pulse(l0, head)] == [Pulse(l0, head)];
    PutLast([], Pulse(l0, head), false, cfg.c);
    assert sb.wave == PrologueWave(l0, cfg);
  }

  /** The prologue runs its three instructions in order. */
  lemma ExecPrologue(setup: nat, lo: bv8, s: State, data: seq<bv8>, cfg: Config)
    ensures Exec(Prologue(setup, lo), s, data, cfg)
         == Step(Store(lo), Step(Delay(setup), Step(Cli, s, data, cfg), data, cfg), data, cfg)
  {
    var sa := Step(Cli, s, data, cfg);
    var sd := Step(Delay(setup), sa, data, cfg);
    ExecUnfold(Prologue(setup, lo), s, data, cfg);
    assert Prologue(setup, lo)[1..] == [Delay(setup), Store(lo)];
    ExecUnfold([Delay(setup), Store(lo)], sa, data, cfg);
    assert [Delay(setup), Store(lo)][1..] == [Store(lo)];
    ExecUnfold([Store(lo)], sd, data, cfg);
    assert [Store(lo)][1..] == [];
  }

  /**
   * No state carries over between frames except the register, which is left
   * at `lo`: the second frame recomputes the same `hi` and `lo`, runs the
   * same program and tests the same bits, and every later frame repeats the
   * second exactly.
   */
  lemma RepeatFrame(data: seq<bv8>, nLeds: nat, port: bv8, irq: bool, t: Phases, cfg: Config)
    requires 3 * nLeds <= |data|
    requires LastFits(t, cfg.c, EndOfLoop)
    requires cfg.mask != 0
    ensures var s1 := ShowRgb(data, nLeds, port, irq, t, cfg);
      var s2 := ShowRgb(data, nLeds, s1.reg, s1.irq, t, cfg);
      && FrameProgram(nLeds, t, cfg.c, cfg.setup, Hi(s1.reg, cfg.mask), Lo(s1.reg, cfg.mask))
         == FrameProgram(nLeds, t, cfg.c, cfg.setup, Hi(port, cfg.mask), Lo(port, cfg.mask))
      && s2.tested == s1.tested
      && s2.wave == Extend([Pulse(false, FlagCycles + cfg.setup + cfg.c + EndOfLoop)]
                           + BitsWave(MsbFirst(data[..3 * nLeds]), t, cfg.c), FlagCycles)
      && ShowRgb(data, nLeds, s2.reg, s2.irq, t, cfg) == s2
  {
    var lo := Lo(port, cfg.mask);
    var s1 := ShowRgb(data, nLeds, port, irq, t, cfg);
    assert s1.reg == lo && s1.irq;
    HiLoStable(port, cfg.mask);
    HiLoLevels(port, cfg.mask);
    assert Lead(lo, cfg) == [Pulse(false, FlagCycles + cfg.setup + cfg.c + EndOfLoop)];
    var s2 := ShowRgb(data, nLeds, lo, true, t, cfg);
    assert s2.reg == lo && s2.irq;
  }

  /**
   * With one-cycle stores a frame lasts `cli()`, the setup cycles, the
   * `lo` store and the first loop test, then exactly
   * `24 * nLeds * (T1 + T2 + T3)` cycles of bits, then `sei()`.
   */
  lemma FrameDuration(data: seq<bv8>, nLeds: nat, port: bv8, irq: bool, t: Phases, cfg: Config)
    requires 3 * nLeds <= |data|
    requires LastFits(t, cfg.c, EndOfLoop) && cfg.c == 1
    requires cfg.mask != 0
    ensures Duration(ShowRgb(data, nLeds, port, irq, t, cfg).wave)
         == FlagCycles + cfg.setup + 1 + EndOfLoop + 24 * nLeds * (t.t1 + t.t2 + t.t3) + FlagCycles
  {
    var bits := MsbFirst(data[..3 * nLeds]);
    var w := Lead(port, cfg) + BitsWave(bits, t, 1);
    BitsWaveDuration(bits, t);
    DurationAppend(Lead(port, cfg), BitsWave(bits, t, 1));
    ExtendDuration(w, FlagCycles);
  }
}

=== FILE: machine.dfy ===
/**
 * An abstract AVR core for the encoder's straight-line code. Each instruction
 * has a cycle cost; running a program yields the line's waveform as a list of
 * pulses (level, length in cycles), the bits `sbrs` tested, the port register
 * and the global interrupt-enable flag.
 */
module Machine {
  import opened Bits
  import opened Port

  /** Cycles of `cli()` and of `sei()`. */
  const FlagCycles: nat := 1
  /** Cycles of `sbrs` when it does not skip. */
  const SbrsCycles: nat := 1
  /** Cycles of `sbrs` when it skips the following one-word instruction. */
  const SbrsSkipCycles: nat := 2
  /** `END_OF_LOOP`: loop compare, jump and load of the next byte. */
  const EndOfLoop: nat := 6
  /** The largest `_CYCLES(DATA_PIN)`: one for `out`, two otherwise. */
  const MaxFastSetCycles: nat := 2

  /** A stretch of constant line level. */
  datatype Pulse = Pulse(high: bool, cycles: nat)

  datatype Instr =
    | Cli                                 // cli(): interrupts off
    | Sei                                 // sei(): interrupts on
    | Store(v: bv8)                       // Pin<DATA_PIN>::fastset(port, v)
    | Delay(n: nat)                       // delaycycles<n>()
    | SkipIfSet(k: BitIndex, v: bv8)      // sbrs b, k then fastset(port, v)
    | Fetch(i: nat)                       // loop test, then b = data[i]
    | Done                                // loop test that leaves the loop

  /**
   * The pin's mask, the cost in cycles of one `fastset`, and the cycles
   * `showRGB` spends between `cli()` and `*port = lo` loading the mask and
   * the port, scaling `nLeds`, computing `end` and reading the port twice.
   */
  datatype Config = Config(mask: bv8, c: nat, setup: nat)

  datatype State = State(irq: bool, reg: bv8, b: bv8, wave: seq<Pulse>, tested: seq<bool>)

  /** The waveform with its current pulse lasting `n` cycles longer. */
  function Extend(w: seq<Pulse>, n: nat): (r: seq<Pulse>)
    ensures |r| == |w|
  {
    if |w| == 0 then w
    else w[..|w| - 1] + [Pulse(w[|w| - 1].high, w[|w| - 1].cycles + n)]
  }

  /** The waveform after the line is driven to `high` for `n` cycles. */
  function Put(w: seq<Pulse>, high: bool, n: nat): seq<Pulse> {
    if |w| > 0 && w[|w| - 1].high == high then Extend(w, n) else w + [Pulse(high, n)]
  }

  /** Total length of a waveform in cycles. */
  function Duration(w: seq<Pulse>): nat {
    if |w| == 0 then 0 else Duration(w[..|w| - 1]) + w[|w| - 1].cycles
  }

  /** Every `Fetch` of the program reads inside a buffer of `n` bytes. */
  predicate FetchesWithin(p: seq<Instr>, n: nat) {
    forall j :: 0 <= j < |p| && p[j].Fetch? ==> p[j].i < n
  }

  /** The cycles one instruction takes when `b` holds `b`. */
  function Cost(ins: Instr, b: bv8, c: nat): nat {
    match ins
    case Cli => FlagCycles
    case Sei => FlagCycles
    case Store(_) => c
    case Delay(n) => n
    case SkipIfSet(k, _) => if BitOf(b, k) then SbrsSkipCycles else SbrsCycles + c
    case Fetch(_) => EndOfLoop
    case Done => EndOfLoop
  }

  /** The cycles a straight-line program without loads takes when `b` holds `b`. */
  function ProgramCost(p: seq<Instr>, b: bv8, c: nat): nat {
    if |p| == 0 then 0 else Cost(p[0], b, c) + ProgramCost(p[1..], b, c)
  }

  /** One instruction. `fastset` costs `cfg.c` cycles and changes the level at its start. */
  function Step(ins: Instr, s: State, data: seq<bv8>, cfg: Config): State
    requires ins.Fetch? ==> ins.i < |data|
  {
    match ins
    case Cli => s.(irq := false, wave := Extend(s.wave, FlagCycles))
    case Sei => s.(irq := true, wave := Extend(s.wave, FlagCycles))
    case Store(v) => s.(reg := v, wave := Put(s.wave, Level(v, cfg.mask), cfg.c))
    case Delay(n) => s.(wave := Extend(s.wave, n))
    case SkipIfSet(k, v) =>
      if BitOf(s.b, k) then
        s.(wave := Extend(s.wave, SbrsSkipCycles), tested := s.tested + [true])
      else
        s.(reg := v, wave := Put(Extend(s.wave, SbrsCycles), Level(v, cfg.mask), cfg.c),
           tested := s.tested + [false])
    case Fetch(i) => s.(b := data[i], wave := Extend(s.wave, EndOfLoop))
    case Done => s.(wave := Extend(s.wave, EndOfLoop))
  }

  /**
   * The cost model: every instruction lengthens the waveform by exactly its
   * cost, a `fastset` drives the line to the level of the value stored, only
   * a `Fetch` loads `b`, only `cli` and `sei` touch the interrupt flag, and
   * only `sbrs` records a tested bit, bit `k` of `b`.
   */
  lemma StepCost(ins: Instr, s: State, data: seq<bv8>, cfg: Config)
    requires ins.Fetch? ==> ins.i < |data|
    requires |s.wave| > 0
    ensures var r := Step(ins, s, data, cfg);
      && Duration(r.wave) == Duration(s.wave) + Cost(ins, s.b, cfg.c)
      && |r.wave| > 0
      && (ins.Store? ==> r.wave[|r.wave| - 1].high == Level(ins.v, cfg.mask))
      && r.b == (if ins.Fetch? then data[ins.i] else s.b)
      && r.irq == (if ins.Cli? then false else if ins.Sei? then true else s.irq)
      && r.tested == (if ins.SkipIfSet? then s.tested + [BitOf(s.b, ins.k)] else s.tested)
  {
    var r := Step(ins, s, data, cfg);
    match ins
    case Store(v) => PutDuration(s.wave, Level(v, cfg.mask), cfg.c);
    case SkipIfSet(k, v) =>
      if !BitOf(s.b, k) {
        ExtendDuration(s.wave, SbrsCycles);
        PutDuration(Extend(s.wave, SbrsCycles), Level(v, cfg.mask), cfg.c);
      } else {
        ExtendDuration(s.wave, SbrsSkipCycles);
      }
    case _ => ExtendDuration(s.wave, Cost(ins, s.b, cfg.c));
  }

  /** Driving the line for `n` cycles lengthens the waveform by `n` and leaves it at that level. */
  lemma PutDuration(w: seq<Pulse>, high: bool, n: nat)
    requires |w| > 0
    ensures Duration(Put(w, high, n)) == Duration(w) + n
    ensures |Put(w, high, n)| > 0 && Put(w, high, n)[|Put(w, high, n)| - 1].high == high
  {
    if w[|w| - 1].high == high {
      ExtendDuration(w, n);
    } else {
      assert (w + [Pulse(high, n)])[..|w|] == w;
    }
  }

  /** Runs a straight-line program. */
  function Exec(p: seq<Instr>, s: State, data: seq<bv8>, cfg: Config): State
    requires FetchesWithin(p, |data|)
    decreases |p|
  {
    if |p| == 0 then s else Exec(p[1..], Step(p[0], s, data, cfg), data, cfg)
  }

  /**
   * Extending changes only the length of the current pulse: every level is
   * kept, every earlier pulse is kept, and the waveform grows by `n` cycles.
   */
  lemma ExtendKeeps(w: seq<Pulse>, n: nat)
    requires |w| > 0
    ensures forall j :: 0 <= j < |w| ==> Extend(w, n)[j].high == w[j].high
    ensures Extend(w, n)[..|w| - 1] == w[..|w| - 1]
    ensures Extend(w, n)[|w| - 1].cycles == w[|w| - 1].cycles + n
  {
  }

  /** Running two programs one after the other is running their concatenation. */
  lemma {:induction false} ExecAppend(a: seq<Instr>, b: seq<Instr>, s: State, data: seq<bv8>, cfg: Config)
    requires FetchesWithin(a, |data|) && FetchesWithin(b, |data|)
    ensures FetchesWithin(a + b, |data|)
    ensures Exec(a + b, s, data, cfg) == Exec(b, Exec(a, s, data, cfg), data, cfg)
  {
    if |a| > 0 {
      assert (a + b)[1..] == a[1..] + b;
      ExecAppend(a[1..], b, Step(a[0], s, data, cfg), data, cfg);
    } else {
      assert a + b == b;
    }
  }

  lemma {:induction false} DurationAppend(a: seq<Pulse>, b: seq<Pulse>)
    ensures Duration(a + b) == Duration(a) + Duration(b)
  {
    if |b| > 0 {
      assert (a + b)[..|a + b| - 1] == a + b[..|b| - 1];
      DurationAppend(a, b[..|b| - 1]);
    } else {
      assert a + b == a;
    }
  }

  lemma DurationPair(p: Pulse, q: Pulse)
    ensures Duration([p, q]) == p.cycles + q.cycles
  {
    assert [p, q][..1] == [p];
    assert [p][..0] == [];
    assert Duration([p]) == Duration([]) + p.cycles;
    assert Duration([p, q]) == Duration([p]) + q.cycles;
  }

  lemma DurationOne(p: Pulse)
    ensures Duration([p]) == p.cycles
  {
    assert [p][..0] == [];
  }

  /** Extending the current pulse lengthens the waveform by exactly that much. */
  lemma ExtendDuration(w: seq<Pulse>, n: nat)
    requires |w| > 0
    ensures Duration(Extend(w, n)) == Duration(w) + n
  {
    assert Extend(w, n)[..|w| - 1] == w[..|w| - 1];
  }

  lemma ExtendLast(w: seq<Pulse>, q: Pulse, n: nat)
    ensures Extend(w + [q], n) == w + [Pulse(q.high, q.cycles + n)]
  {
    assert (w + [q])[..|w|] == w;
  }

  lemma PutLast(w: seq<Pulse>, q: Pulse, high: bool, n: nat)
    ensures Put(w + [q], high, n)
         == if q.high == high then w + [Pulse(q.high, q.cycles + n)] else w + [q, Pulse(high, n)]
  {
    ExtendLast(w, q, n);
  }

  lemma ExecUnfold(p: seq<Instr>, s: State, data: seq<bv8>, cfg: Config)
    requires |p| > 0 && FetchesWithin(p, |data|)
    ensures FetchesWithin(p[1..], |data|)
    ensures p[0].Fetch? ==> p[0].i < |data|
    ensures Exec(p, s, data, cfg) == Exec(p[1..], Step(p[0], s, data, cfg), data, cfg)
  {
  }

  /** A six-instruction program without a `Fetch` runs its six steps in order. */
  lemma ExecSix(p: seq<Instr>, s: State, data: seq<bv8>, cfg: Config)
    requires |p| == 6 && FetchesWithin(p, |data|)
    ensures Exec(p, s, data, cfg)
         == Step(p[5], Step(p[4], Step(p[3], Step(p[2], Step(p[1], Step(p[0], s, data, cfg),
              data, cfg), data, cfg), data, cfg), data, cfg), data, cfg)
  {
    var q := p;
    var r := s;
    ExecUnfold(q, r, data, cfg);
    r := Step(q[0], r, data, cfg);
    q := q[1..];
    ExecUnfold(q, r, data, cfg);
    r := Step(q[0], r, data, cfg);
    q := q[1..];
    ExecUnfold(q, r, data, cfg);
    r := Step(q[0], r, data, cfg);
    q := q[1..];
    ExecUnfold(q, r, data, cfg);
    r := Step(q[0], r, data, cfg);
    q := q[1..];
    ExecUnfold(q, r, data, cfg);
    r := Step(q[0], r, data, cfg);
    q := q[1..];
    ExecUnfold(q, r, data, cfg);
    r := Step(q[0], r, data, cfg);
    q := q[1..];
    assert q == [];
  }
}

=== FILE: port.dfy ===
/**
 * The pin's port register. It is one byte wide and shared with the other pins
 * of the same port, so every write must keep their bits as they were.
 */
module Port {

  /** The register value with the pin forced high (`hi = *port | mask`). */
  function Hi(port: bv8, mask: bv8): (r: bv8)
    ensures r & mask == mask
    ensures r & !mask == port & !mask
  {
    port | mask
  }

  /** The register value with the pin forced low (`lo = *port & ~mask`). */
  function Lo(port: bv8, mask: bv8): (r: bv8)
    ensures r & mask == 0
    ensures r & !mask == port & !mask
  {
    port & !mask
  }

  /** The level of the pin selected by `mask` when the register holds `v`. */
  predicate Level(v: bv8, mask: bv8) {
    v & mask != 0
  }

  /** For a real pin (non-empty mask) `hi` drives the line high and `lo` low. */
  lemma HiLoLevels(port: bv8, mask: bv8)
    requires mask != 0
    ensures Level(Hi(port, mask), mask)
    ensures !Level(Lo(port, mask), mask)
  {
  }

  /** `hi` and `lo` differ in exactly the pin's bits. */
  lemma HiLoDifferOnlyInMask(port: bv8, mask: bv8)
    ensures Hi(port, mask) ^ Lo(port, mask) == mask
  {
  }

  /**
   * After a frame the register holds `lo`; computing `hi` and `lo` again from
   * that value gives the same pair, so the next frame writes the same values.
   */
  lemma HiLoStable(port: bv8, mask: bv8)
    ensures Hi(Lo(port, mask), mask) == Hi(port, mask)
    ensures Lo(Lo(port, mask), mask) == Lo(port, mask)
  {
  }
}

=== FILE: timing.dfy ===
/**
 * Build-time timing arithmetic: nanosecond targets converted to CPU cycles
 * (`NS`) and the minimum-cycle test (`NO_TIME`). Both are C preprocessor
 * integer expressions; an expression that divides by zero does not build,
 * which is modelled as `None`.
 */
module Timing {

  datatype Option<T> = None | Some(value: T)

  /** The three phase lengths T1, T2, T3 of one bit, in CPU cycles. */
  datatype Phases = Phases(t1: int, t2: int, t3: int)

  /** The minimum phase lengths `NO_TIME` accepts. */
  const MinT1: int := 3
  const MinT2: int := 2
  const MinT3: int := 6

  /** C's signed `/`: the quotient truncated toward zero. */
  function TruncDiv(a: int, b: int): (q: int)
    requires b > 0
    ensures 0 <= a ==> 0 <= q && q * b <= a < q * b + b
    ensures a < 0 ==> q <= 0 && q * b - b < a <= q * b
  {
    if a >= 0 then
      DivBounds(a, b);
      a / b
    else
      var m := (-a) / b;
      DivBounds(-a, b);
      assert -m * b == -(m * b);
      -m
  }

  /** Euclidean division of a non-negative number by a positive one. */
  lemma DivBounds(a: int, b: int)
    requires a >= 0 && b > 0
    ensures 0 <= a / b && (a / b) * b <= a < (a / b) * b + b
  {
  }

  /** `1000 / (F_CPU / 1000000L)`: nanoseconds per cycle, rounded down. */
  function NsPerCycle(fcpu: nat): (r: Option<int>)
    ensures r.Some? <==> 1 <= fcpu / 1000000 <= 1000
    ensures r.Some? ==> 1 <= r.value <= 1000 && r.value * (fcpu / 1000000) <= 1000
    ensures r.Some? ==> 1000 < (r.value + 1) * (fcpu / 1000000)
  {
    var mhz := fcpu / 1000000;
    if mhz == 0 then None
    else
      var period := 1000 / mhz;
      DivBounds(1000, mhz);
      assert (period + 1) * mhz == period * mhz + mhz;
      if period == 0 then None else Some(period)
  }

  /** `NS(ns)`: the number of whole cycles that fit into `ns` nanoseconds. */
  function Ns(ns: int, fcpu: nat): (r: Option<int>)
    ensures r.Some? <==> 1 <= fcpu / 1000000 <= 1000
    ensures r.Some? && ns >= 0 ==>
      var period := NsPerCycle(fcpu).value;
      0 <= r.value && r.value * period <= ns < (r.value + 1) * period
    ensures r.Some? && ns < 0 ==>
      var period := NsPerCycle(fcpu).value;
      r.value <= 0 && (r.value - 1) * period < ns <= r.value * period
  {
    match NsPerCycle(fcpu)
    case None => None
    case Some(period) => Some(TruncDiv(ns, period))
  }

  /**
   * `NS(a + b)` as the preprocessor expands it: `_NS` is not parenthesised,
   * so `/` binds to `b` alone and `a` is added as nanoseconds. Defined for
   * the same clocks as `NS`, it never gives fewer cycles than `NS` of the
   * sum, for non-negative parts.
   */
  function NsOfSumAsWritten(a: int, b: int, fcpu: nat): (r: Option<int>)
    ensures r.Some? <==> Ns(a + b, fcpu).Some?
    ensures r.Some? && a >= 0 && b >= 0 ==> Ns(a + b, fcpu).value <= r.value
  {
    match NsPerCycle(fcpu)
    case None => None
    case Some(period) =>
      var q := TruncDiv(b, period);
      if a >= 0 && b >= 0 then
        NsSumBound(a, b, period, q, Ns(a + b, fcpu).value);
        Some(a + q)
      else Some(a + q)
  }

  /** The cycles of a sum are at most the first part plus the cycles of the second. */
  lemma NsSumBound(a: int, b: int, p: int, q: int, q2: int)
    requires a >= 0 && b >= 0 && p >= 1
    requires q * p <= b < q * p + p
    requires 0 <= q2 && q2 * p <= a + b
    ensures q2 <= a + q
  {
    if q2 > a + q {
      MulMono(a + q + 1, q2, p);
      assert (a + q + 1) * p == a * p + q * p + p;
      MulAtLeast(a, p);
    }
  }

  lemma MulMono(x: int, y: int, p: int)
    requires x <= y && p >= 0
    ensures x * p <= y * p
  {
  }

  lemma MulAtLeast(a: int, p: int)
    requires a >= 0 && p >= 1
    ensures a <= a * p
  {
  }

  /**
   * At 16 MHz `NS(300 + 50)` expands to `300 + 50 / 62`, which is 300
   * cycles, while the 350 ns it was written for are 5 cycles.
   */
  lemma NsUnparenthesisedSum()
    ensures NsOfSumAsWritten(300, 50, 16000000) == Some(300)
    ensures Ns(300 + 50, 16000000) == Some(5)
  {
    assert NsPerCycle(16000000) == Some(62);
  }

  /** The phase lengths meet the minimums `NO_TIME` demands. */
  predicate MeetsMinimums(t: Phases) {
    t.t1 >= MinT1 && t.t2 >= MinT2 && t.t3 >= MinT3
  }

  /** The phases, in cycles, of three nanosecond targets. */
  function PhasesOf(a: int, b: int, c: int, fcpu: nat): (r: Option<Phases>)
    ensures r.Some? <==> 1 <= fcpu / 1000000 <= 1000
  {
    if Ns(a, fcpu).Some? then
      Some(Phases(Ns(a, fcpu).value, Ns(b, fcpu).value, Ns(c, fcpu).value))
    else None
  }

  /** `NO_TIME(A, B, C)`: true when some phase is too short. */
  function NoTime(a: int, b: int, c: int, fcpu: nat): (r: Option<bool>)
    ensures r.Some? <==> 1 <= fcpu / 1000000 <= 1000
    ensures r == Some(false) <==> PhasesOf(a, b, c, fcpu).Some? && MeetsMinimums(PhasesOf(a, b, c, fcpu).value)
  {
    match (Ns(a, fcpu), Ns(b, fcpu), Ns(c, fcpu))
    case (Some(t1), Some(t2), Some(t3)) => Some(t1 < MinT1 || t2 < MinT2 || t3 < MinT3)
    case _ => None
  }

  /** `NS` of zero nanoseconds is zero cycles. */
  lemma NsZero(fcpu: nat)
    requires 1 <= fcpu / 1000000 <= 1000
    ensures Ns(0, fcpu) == Some(0)
  {
  }

  lemma DivMonotone(a: int, b: int, d: int)
    requires 0 <= a <= b && d > 0
    ensures a / d <= b / d
  {
    var x := a / d - b / d;
    assert x * d == (a - a % d) - (b - b % d);
    assert x * d < d;
    MulBelow(x, d);
  }

  lemma MulBelow(x: int, d: int)
    requires d > 0 && x * d < d
    ensures x <= 0
  {
  }

  /** A longer target never gives fewer cycles. */
  lemma NsMonotone(a: int, b: int, fcpu: nat)
    requires a <= b
    requires 1 <= fcpu / 1000000 <= 1000
    ensures Ns(a, fcpu).value <= Ns(b, fcpu).value
  {
    var d := NsPerCycle(fcpu).value;
    if 0 <= a {
      DivMonotone(a, b, d);
    } else if b < 0 {
      DivMonotone(-b, -a, d);
    }
  }
}
